=== FILE: README.md ===
# TEA screening: a Dafny model of the AQ-10 screening core

This project models the core of an autism (TEA, *Transtorno do Espectro
Autista*) screening application. The application has four parts, and each
becomes a Dafny module of pure functions with contracts and lemmas:

- **the screening wizard** of the React client (`Wizard`). It has three steps:
  the ten AQ-10 questions, the demographic fields, and the result. The model
  covers the gates on its buttons, the request body it builds, and what the
  prediction response or a failure leaves behind.
- **the `/predict` and `/stats` endpoints** of the FastAPI backend (`Api`):
  - request validation, with every failing field reported;
  - the lower-cased gender stored in the screening row;
  - the result row built from the classifier's output;
  - the JSON response;
  - the positive rate with its zero guard.
- **the classifier's post-processing** (`Classifier`):
  - the confidence level, from the distance of the probability to 0.5;
  - the recommendation text;
  - the `TEA` / `Sem TEA` label.
- **the dashboard aggregations** (`Dashboard`), written as folds over the
  database. The database is modelled as a sequence of screenings, each with
  at most one result. The aggregations are:
  - the KPIs;
  - the age and confidence histograms;
  - the group-bys by gender, jaundice and family history;
  - the per-question score averages.

Supporting modules:

- `Common`: `Option`/`Result`, sums, counts, and the guarded division
  `x / n if n > 0 else 0`.
- `Json`: JSON values.
- `JsInt`: ECMAScript `parseInt`, and decimal rendering with its round trip.
- `Store`: the two tables and their join.

Two behaviours of the code are worth knowing before reading the model:

- The classifier computes a recommendation text, but the backend's response
  model (`app/app.py:38-43`) has no `recommendation` field. The client reads
  that field anyway, so its recommendation box is always empty
  (`Wizard.RecommendationNeverShown`).
- The dashboard endpoints are independent queries, and each one is modelled
  on its own.

## Model

| member | source | states |
|---|---|---|
| Common.Ratio | app/app.py:165 | `a / b if b > 0 else 0`: zero when the denominator is zero, otherwise the exact quotient (`r * den == num`), and within [0, 1] when the numerator does not exceed the denominator |
| Common.Mean | app/dashboard_endpoints.py:215-216 | the average of a score list is 0 for the empty list, otherwise it times the length is the sum; for 0/1 scores it lies in [0, 1] |
| Common.SumOfBinary | app/dashboard_endpoints.py:215-217 | the sum of a list of 0/1 scores lies between 0 and its length |
| Common.SumOfBinaryCountsOnes | app/dashboard_endpoints.py:215-217 | a list of 0/1 scores sums to the number of its entries equal to 1 |
| Common.TallyPartition | app/dashboard_endpoints.py:60-78 | when every item falls in exactly one bucket or in none according to a domain predicate, the bucket counts add up to the number of items in the domain |
| Common.CountInCover | app/dashboard_endpoints.py:217 | when every item falls in exactly one of two buckets, the two counts add up to the number of items |
| JsInt.TrimStart | frontend/src/App.js:306 | `parseInt` first drops a prefix made only of ECMAScript white space and stops at the first non-space character |
| JsInt.DigitRun | frontend/src/App.js:306 | `parseInt` reads the longest prefix of digits valid in the radix |
| JsInt.ParseInt | frontend/src/App.js:306 | `parseInt` yields a number only when something is left after the leading white space, and a negative number only after a leading minus sign; its round trips are the lemmas below |
| JsInt.ParseShow | frontend/src/App.js:306 | `parseInt` of the decimal rendering of n is n (round trip) |
| JsInt.ParseNegativeShow | frontend/src/App.js:306 | `parseInt` of a minus sign followed by the decimal rendering of n is −n |
| JsInt.ParseMinus | frontend/src/App.js:306 | a leading minus sign negates whatever the unsigned part reads as |
| JsInt.UnsignedShow | frontend/src/App.js:306 | the unsigned part of `parseInt` reads the decimal rendering of n as n |
| JsInt.UnsignedShowThenRest | frontend/src/App.js:306 | the unsigned part stops at the first character that is not a decimal digit and reads the digits before it as their number |
| JsInt.ParseShowThenRest | frontend/src/App.js:306 | trailing non-digit characters after the number are ignored (`parseInt("25 anos")` is 25) |
| JsInt.ParseNoDigits | frontend/src/App.js:306 | text with no digits at all parses to NaN (no value) |
| JsInt.ValueOfShow | frontend/src/App.js:306 | the digits of the decimal rendering of n denote n |
| JsInt.Show | app/dashboard_endpoints.py:214 | decimal rendering is non-empty, only digits, without a leading zero |
| Classifier.ConfidenceLevel | app/classifier_tea.py:66-77 | 'Muito Alta' iff the distance from 0.5 is at least 0.4, 'Alta' iff in [0.3, 0.4), 'Média' iff in [0.2, 0.3), 'Baixa' iff below 0.2 |
| Classifier.LevelCountsThresholds | app/classifier_tea.py:66-77 | the level's rank equals the number of thresholds 0.2, 0.3, 0.4 the distance reaches |
| Classifier.LevelSymmetric | app/classifier_tea.py:68 | the level of p and of 1 − p are the same |
| Classifier.LevelMonotone | app/classifier_tea.py:70-77 | a probability further from 0.5 never gets a lower level |
| Classifier.Recommendation | app/classifier_tea.py:79-92 | for class 1: priority referral iff p ≥ 0.8, referral iff 0.6 ≤ p < 0.8, consider referral iff p < 0.6; otherwise monitoring iff p ≥ 0.4 and low risk iff p < 0.4; always one of the five texts |
| Classifier.RecommendationUrgency | app/classifier_tea.py:79-92 | the recommendation's urgency never decreases as the probability grows, and the three referral texts are given exactly to class 1 |
| Classifier.Predict | app/classifier_tea.py:49-64 | the label is 'TEA' iff the model's class is 1 and 'Sem TEA' otherwise; the probability and model type pass through; the level is the confidence level of the probability and the recommendation the text for the class and probability, both as characterised above |
| Store.Joined | app/dashboard_endpoints.py:87-91 | the inner join of screenings and results has one row per screening with a result, keeps the number of positive rows, and every row comes from the database |
| Store.JoinedCounts | app/dashboard_endpoints.py:87-91 | for any property of rows, the joined rows having it are exactly as many as the screenings whose result, joined to them, has it: no row is duplicated or dropped |
| Store.Results | app/dashboard_endpoints.py:109 | the i-th result row is the result of the i-th joined row, and they are as many as the screenings that have a result |
| Store.ResultCounts | app/app.py:156-159 | positives plus negatives never exceed the results, and the results never exceed the screenings |
| Api.ScoreErrors | app/app.py:22-31 | question q is reported iff its score is missing or not in 0..1; no report iff all ten are valid |
| Api.OtherErrors | app/app.py:32-36 | the age is reported iff it is missing or outside 1..100; gender (`m`, `f`, `M`, `F`), jaundice, family history and prior use (`yes`/`no`) are each reported iff out of their domain |
| Api.ValidPatient | app/app.py:21-36 | a patient is valid when its ten scores are 0 or 1, its age is in 1..100, its gender is `m`, `f`, `M` or `F`, and jaundice, family history and prior use are `yes` or `no` (the lemmas and `Api.Validate` state what follows from it) |
| Api.Errors | app/app.py:21-36 | every invalid field is reported and only those; no errors iff every field is valid |
| Api.OnlyAgeBad | app/app.py:21-36 | a body whose scores, gender, jaundice, family history and prior use are valid is refused for the age alone, and only when the age is out of range |
| Api.NoErrorsWhenValid | app/app.py:21-36 | a body that denotes a valid patient produces no validation errors |
| Api.Validate | app/app.py:21-36 | on success the parsed patient is valid and equal to the body; on failure no valid patient is denoted by the body and the error list is the list of invalid fields; success iff all fields are valid |
| Api.ValidateIff | app/app.py:21-36 | a body denoting patient p is accepted iff p is valid, and then it yields exactly p |
| Api.Lower | app/app.py:113 | lower-casing keeps the length and maps each character independently |
| Api.LowerGender | app/app.py:113 | a valid gender code is stored as `m` or `f`, `m` exactly for `m` and `M` |
| Api.LowerIdempotent | app/app.py:113 | lower-casing twice is lower-casing once |
| Api.ToScreening | app/app.py:101-117 | the screening row copies the scores, age and answers, stores the gender lower-cased, and is well formed when the patient is valid |
| Api.Encode | app/app.py:38-43 | the response object has exactly the members id, prediction, confidence, model_type, created_at, and no recommendation |
| Api.DecodeEncode | app/app.py:38-43 | reading back the encoded response gives the response (round trip) |
| Api.OutputOf | app/app.py:139-145 | the response copies the stored result row field by field, the model version becoming `model_type` |
| Api.HandlePredict | app/app.py:90-149 | an invalid body is refused with its error list and the database unchanged. Otherwise the screening, with its gender lower-cased, is appended first. If the classifier fails after that commit, the reply is the 400 error and the screening stays without a result, since the rollback only undoes uncommitted work. If it succeeds, exactly one result row is appended: the given result id, the screening's id, 'TEA' if the model's class is 1 and 'Sem TEA' otherwise, the probability as its confidence, the classifier's model type as its model version, and the given timestamp. The response is that row, so its `model_type` is the classifier's. A well-formed database stays well formed |
| Store.PositiveRate | app/app.py:165 | the positive rate is 0 for an empty database, otherwise it times the number of screenings is the number of positive results, and it lies in [0, 1] |
| Api.GetStatistics | app/app.py:151-168 | totals count screenings, positive and negative results, with positives plus negatives at most the total; the rate is the positive rate over all screenings and lies in [0, 1] |
| Dashboard.Ages | app/dashboard_endpoints.py:22 | the ages averaged are one per screening, in order |
| Dashboard.AverageAge | app/dashboard_endpoints.py:22 | the average age is 0 with no screenings, otherwise it times the number of screenings is the sum of their ages |
| Dashboard.GetKpis | app/dashboard_endpoints.py:10-42 | counts of screenings, results, positives and negatives with positives + negatives ≤ results ≤ screenings; the positive rate over all screenings, within [0, 1]; the average age over all screenings |
| Dashboard.AgeRangesContiguous | app/dashboard_endpoints.py:49-57 | the seven age ranges start at 0, end at 150, and each starts one year after the previous ends |
| Dashboard.AgeRangesPartition | app/dashboard_endpoints.py:49-63 | an age in 0..150 falls in exactly one range; any other age falls in none |
| Dashboard.AgeBucketOf | app/dashboard_endpoints.py:61-77 | a range's total counts its screenings, its positives count those with a 'TEA' result, negatives are the difference (never negative), the rate is guarded and within [0, 1] |
| Dashboard.AgeTotalIsTally | app/dashboard_endpoints.py:60-78 | the bucket totals add up to the sum over screenings of the number of ranges each falls in |
| Dashboard.AgeTotalCovered | app/dashboard_endpoints.py:49-78 | the totals of the seven age buckets add up to the number of screenings aged 0 to 150 |
| Dashboard.AgeDistribution | app/dashboard_endpoints.py:44-80 | one bucket per range, in order; the i-th bucket is the bucket of the i-th range (its screenings, and the positive results among them); the totals add up to the number of screenings whose age is in 0..150 |
| Dashboard.ConfidenceRangesContiguous | app/dashboard_endpoints.py:111-117 | the five confidence ranges are half-open, start at 0, end at 1, and each starts where the previous ends |
| Dashboard.ConfidenceRangesPartition | app/dashboard_endpoints.py:111-121 | a confidence in [0, 1) falls in exactly one range; any other falls in none (1.0 itself is counted nowhere) |
| Dashboard.ConfidenceBucketOf | app/dashboard_endpoints.py:121-129 | a range's count, positives among them, and negatives as the difference (never negative) |
| Dashboard.ConfidenceTotalIsTally | app/dashboard_endpoints.py:120-129 | the bucket counts add up to the sum over results of the number of ranges each falls in |
| Dashboard.ConfidenceDistribution | app/dashboard_endpoints.py:104-131 | one bucket per range, in order; the i-th bucket is the bucket of the i-th range over the result rows, with the positive results among them; the counts add up to the results whose confidence is in [0, 1), which is at most the number of results |
| Dashboard.IndexOfKey | app/dashboard_endpoints.py:91 | a group's position is found when the key is present and the group list's length when it is absent |
| Dashboard.AddRow | app/dashboard_endpoints.py:87-91 | counting a row with a key adds a group only when the key had none, leaves every other group as it was, and the key's group gains one row, and one positive when the row is positive |
| Dashboard.GroupBy | app/dashboard_endpoints.py:87-91 | the groups have distinct keys, each group's total and positives are the joined rows with that key and with that key and a 'TEA' result, every group is non-empty, keys not in the list have no rows, and the totals add up to the number of joined rows |
| Dashboard.GroupByStep | app/dashboard_endpoints.py:87-91 | adding one row to its key's group, or opening a new group, keeps the grouping invariant |
| Dashboard.StepExisting | app/dashboard_endpoints.py:87-91 | a row whose key already has a group grows that group and keeps the grouping invariant |
| Dashboard.StepNew | app/dashboard_endpoints.py:87-91 | a row with a key no group has opens a new group and keeps the grouping invariant |
| Dashboard.ExistingCounted | app/dashboard_endpoints.py:87-91 | with distinct keys, counting a row into its key's group keeps every group's total and positives equal to its rows |
| Dashboard.ExistingComplete | app/dashboard_endpoints.py:87-91 | counting a row into an existing group leaves every key without a group with no rows |
| Dashboard.NewCounted | app/dashboard_endpoints.py:87-91 | a new group for a row with an unseen key counts exactly that row, and the other groups keep their counts |
| Dashboard.NewComplete | app/dashboard_endpoints.py:87-91 | after opening a group for the row's key, every key without a group still has no rows |
| Dashboard.PresentKeyCounts | app/dashboard_endpoints.py:87-91 | a key carried by some joined row is counted at least once |
| Dashboard.EveryRowGrouped | app/dashboard_endpoints.py:87-91 | every joined row's key has a group |
| Dashboard.GroupKeysWellFormed | app/dashboard_endpoints.py:87-91 | on a well-formed database group keys are `m`/`f` for gender and `yes`/`no` for the two risk factors |
| Dashboard.GenderNameIff | app/dashboard_endpoints.py:95 | the label is 'Masculino' exactly for the key `m` and 'Feminino' for every other key |
| Dashboard.GenderStatOf | app/dashboard_endpoints.py:94-100 | a gender group is labelled from its key, keeps its counts, negatives are the difference; the rate is 0 for an empty group and otherwise times the total gives the positives, and it lies within [0, 1] |
| Dashboard.GenderNamesDistinct | app/dashboard_endpoints.py:95 | on a well-formed database the gender labels 'Masculino' and 'Feminino' of distinct groups differ |
| Dashboard.GenderStats | app/dashboard_endpoints.py:94-100 | one entry per group, in order: the i-th entry is the labelled entry of the i-th group, with the group's counts and negatives as the difference; when a group's positives do not exceed its total, its negatives are not negative and its rate lies in [0, 1] |
| Dashboard.GenderDistribution | app/dashboard_endpoints.py:82-102 | one entry per gender group of the joined rows, each the labelled entry of its group; its positives are the joined rows of that gender with a 'TEA' result; rates within [0, 1]; distinct labels on a well-formed database |
| Dashboard.YesNoNameIff | app/dashboard_endpoints.py:181 | the value is 'Sim' exactly for the key `yes` and 'Não' for every other key |
| Dashboard.FormatResults | app/dashboard_endpoints.py:177-187 | one entry per group carrying the factor name, 'Sim'/'Não' from the key and the group's counts; the rate is 0 for an empty group, otherwise times the total it gives the positives, and within [0, 1] when positives do not exceed the total |
| Dashboard.YesNoNamesDistinct | app/dashboard_endpoints.py:177-187 | on a well-formed database the 'Sim'/'Não' labels of distinct groups of one risk factor differ |
| Dashboard.FormatKeepsDistinct | app/dashboard_endpoints.py:177-187 | relabelling groups whose 'Sim'/'Não' labels differ gives entries whose values differ |
| Dashboard.FactorCounts | app/dashboard_endpoints.py:160-187 | each relabelled group of the rows by one column counts the rows with that key and the positive ones among them, is non-empty, and has a rate in [0, 1] |
| Dashboard.FactorStats | app/dashboard_endpoints.py:160-187 | the entries are the relabelled groups of the joined rows by that column, one per group: the factor name, 'Sim'/'Não' from the key, the rows with that key and the positive ones among them, never an empty group, the rate in [0, 1], and distinct values on a well-formed database |
| Dashboard.GetRiskFactors | app/dashboard_endpoints.py:158-192 | the jaundice entries are the risk-factor entries of the jaundice column labelled 'Icterícia', and the family-history entries those of the family-history column labelled 'Histórico Familiar'; one per group, rates within [0, 1], and distinct values on a well-formed database |
| Dashboard.ScoresWith | app/dashboard_endpoints.py:210-211 | the scores collected for one label are one per joined row with that label, and are 0/1 when the rows are |
| Dashboard.ScoresWithValues | app/dashboard_endpoints.py:210-211 | each value occurs among the scores collected for a label as often as there are joined rows with that label answering the question with that value, so the collected scores are those rows' answers |
| Dashboard.LabelOnes | app/dashboard_endpoints.py:210-216 | over 0/1 answers, the scores collected for a label sum to the number of rows with that label answering 1; with the mean's contract this fixes both per-label averages |
| Dashboard.QuestionNameEnds | app/dashboard_endpoints.py:214 | the question names run from "A1" to "A10" |
| Dashboard.QuestionNamesDistinct | app/dashboard_endpoints.py:214 | distinct question numbers get distinct names |
| Dashboard.PooledAverage | app/dashboard_endpoints.py:217 | two pooled score lists divided by n: 0 when n is 0, otherwise times n it gives their total; it is their mean when they hold n scores, and within [0, 1] for 0/1 scores not more than n |
| Dashboard.TotalAverage | app/dashboard_endpoints.py:217 | 0 with no joined rows; when every joined row is 'TEA' or 'Sem TEA' it is the mean of all the answers to the question; within [0, 1] for 0/1 scores |
| Dashboard.QuestionStatOf | app/dashboard_endpoints.py:209-218 | named A(q+1); the positive and negative averages are the means of the scores under each label; the total average is 0 with no rows, the mean of all answers when every row has one of the two labels, and within [0, 1] for 0/1 scores |
| Dashboard.ScoreAnalysis | app/dashboard_endpoints.py:194-220 | ten entries named A1..A10 in order, with every average in [0, 1] on a well-formed database |
| Wizard.SetAnswer | frontend/src/App.js:269-274 | choosing an answer records it for that question, keeps every other answer and every demographic field |
| Wizard.SetDemographic | frontend/src/App.js:276-278 | editing a field sets that field only |
| Wizard.CanProceed | frontend/src/App.js:280-288 | step 1 proceeds iff ten answers are recorded, step 2 iff age, gender, jaundice and family history are non-empty, step 3 never |
| Wizard.AnswerCount | frontend/src/App.js:282 | for answers recorded by the radio buttons, ten keys is the same as every question 1..10 answered |
| Wizard.BuildPayload | frontend/src/App.js:295-311 | score q is answer q (absent when unanswered), the age is `parseInt` of the age text, the other fields are copied |
| Wizard.Back | frontend/src/App.js:514-519 | "Voltar" shows step 1 and changes nothing else |
| Wizard.BeginSubmit | frontend/src/App.js:290-292 | a submission sets the busy flag and clears the error, nothing else |
| Wizard.Finish | frontend/src/App.js:319-329 | an ok response becomes the result and step 3; a failure shows the fixed message and keeps step, form and result; the busy flag drops either way |
| Wizard.Reset | frontend/src/App.js:332-344 | "Nova Triagem" gives step 1, the empty form, no result and no error; with no request in flight this is the initial state |
| Wizard.Available | frontend/src/App.js:377-526 | which events the screen offers: answers on step 1, the radio values and any age text on step 2, "Próximo" only when it may proceed, "Finalizar Triagem" only when it may proceed and nothing is in flight (lines 410 and 522), a response only while a request is in flight, "Nova Triagem" only with a result |
| Wizard.Dispatch | frontend/src/App.js:377-526 | an event whose control is not on screen or is disabled changes nothing; a request is sent iff an enabled "Finalizar Triagem" is clicked, and its body is the payload of the current form; each enabled event has its effect: an answer or field is recorded, "Próximo" shows step 2 with everything else kept, "Voltar", submission, the response and "Nova Triagem" act as the transitions above |
| Wizard.DispatchInv | frontend/src/App.js:255-344 | every transition keeps the invariant: answers are 0/1 for questions 1..10, radio fields are empty or one of their values, prior use stays "no", step 2 and a request in flight imply ten answers, step 3 iff a result, an error is the fixed message |
| Wizard.AnswerInv | frontend/src/App.js:269-274 | choosing an allowed answer while allowed keeps the invariant, including ten answers while a request is in flight |
| Wizard.InitialInv | frontend/src/App.js:256-267 | the state the form starts in (step 1, empty answers, `used_app_before` "no", no result, not loading, no error) satisfies the invariant |
| Wizard.RunInv | frontend/src/App.js:255-344 | every state reached by any sequence of events from the initial state (the base case is `Wizard.InitialInv`) satisfies the invariant |
| Wizard.NextEnabledIff | frontend/src/App.js:408-414 | "Próximo" is enabled iff every one of the ten questions is answered |
| Wizard.SubmitEnabledIff | frontend/src/App.js:520-526 | "Finalizar Triagem" is enabled iff the four required fields are non-empty and no request is in flight |
| Wizard.SubmitThenFail | frontend/src/App.js:290-330 | a submission that fails leaves step 2 with the form kept, the fixed error shown and the busy flag down |
| Wizard.SubmitThenSucceed | frontend/src/App.js:290-330 | a submission that succeeds shows step 3 holding exactly the response body, with no error |
| Wizard.NoDuplicateSubmit | frontend/src/App.js:522 | while a request is in flight a click on submit sends nothing |
| Wizard.NextKeepsForm | frontend/src/App.js:408-414 | "Próximo" shows step 2 with every answer, field, result, error and the busy flag kept |
| Wizard.BackKeepsForm | frontend/src/App.js:514-519 | going back from step 2 keeps every entered value |
| Wizard.RestartIsInitial | frontend/src/App.js:573-575 | restarting from the result screen gives back the initial state |
| Wizard.GatedFormAcceptedIff | frontend/src/App.js:284-311 | a reachable form that passes the step-2 gate is accepted by the API iff its age text parses to 1..100, and otherwise refused for the age alone |
| Wizard.GatedScoresOk | frontend/src/App.js:280-311 | past the step-2 gate every one of the ten scores in the request body is present and valid |
| Wizard.FilledInv | frontend/src/App.js:255-267 | a step-2 form with all ten answers and radio values satisfies the invariant |
| Wizard.AgeZeroPassesGate | frontend/src/App.js:284-311 | the age text "0" enables submission and the API refuses it with the age as the only error |
| Wizard.ExampleAccepted | frontend/src/App.js:284-311 | all answers 1, age "5", male, with jaundice and family history is accepted by the API |
| Wizard.RecommendationNeverShown | frontend/src/App.js:554 | after a successful prediction the stored result has no `recommendation` member, so the recommendation text is never shown |

## Left out

- HTTP transport, SQLAlchemy sessions, commits and rollbacks, `/` and `/health`: no logic beyond the database reads already modelled.
- `/recent-screenings`: the inner join it reads is `Store.Joined`; its newest-first ordering by `created_at` and its `limit` (10 by default) are not modelled.
- Database failures inside `/predict`, `/stats` or a dashboard query, and the error response they cause: the database is not modelled as something that can fail. Validation failures are modelled (`Api.Validate`), and so is a classifier failure after the screening was committed (`Api.HandlePredict`).
- `prepare_input`, the scaler and the scikit-learn model: the class and probability are an input (`Classifier.ModelOutput`).
- `/api/dashboard/timeline` and the seven-day KPI `recent_screenings_7d`: both depend on the clock and on SQL date functions.
- `avg_confidence` in the KPIs: the confidence column is a `String(50)` (`app/schema.py:67`), and the connection URL carries a PostgreSQL `search_path` option (`app/database.py:14-15`). PostgreSQL has no `avg` over `varchar`, so as written the `/kpis` query raises a type error, and the endpoint has no `try`, so no KPI is returned. `Dashboard.GetKpis` describes the other fields as they are computed.
- `round(avg_age, 1)`: the model keeps the exact average, because Python float rounding is not modelled.
- Floating point: probabilities, rates and averages are exact reals, so boundary cases such as a probability whose IEEE distance from 0.5 rounds below 0.4 are not modelled.
- Dashboard.GroupBy: groups come out in order of first appearance, while SQL `GROUP BY` promises no order; every contract is about the groups' contents.
- Api.Lower: lower-cases ASCII letters only; Python's Unicode lower-casing of other characters does not affect the four valid gender codes.
- JsInt.ParseInt: values are exact integers, so the precision lost by JavaScript numbers above 2^53 is not modelled; `JSON.stringify` turning NaN into `null` is modelled as an absent age.
- Wizard.EditAllowed: the age box accepts any text, while a browser's number input yields only numeric text or the empty string; this admits more inputs, not fewer.
- The dashboard page, its password gate, `fetchDashboardData` and every rendering detail except the gates, the error message and the recommendation box.
- The wizard's state being discarded when the user switches to the dashboard view: only the wizard's own transitions are modelled.
- Api.OtherErrors: the text fields of a request body are always present strings, so a missing or `null` gender, jaundice, family history or prior use is not representable. Pydantic's lax coercions (a score sent as `1.0`, `"1"` or `true`) are not modelled either: a score is an integer or absent.
- Wizard.Finish: an ok response is modelled as a JSON object, so a body that is `null` or not an object (`frontend/src/App.js:531` reads `result.prediction` from it) is not representable.
- Dashboard.TotalAverage: the total average is tied to the mean of all answers only when every joined row is labelled 'TEA' or 'Sem TEA', as on a well-formed database. For rows with any other label the contract only gives 0 for no rows and the [0, 1] bound.

=== FILE: api.dfy ===
/** The prediction API: the request body and its field constraints, the rows
    the /predict handler stores, the response it returns and the /stats summary. */
module Api {
  import opened Common
  import Json
  import Classifier
  import Store

  /** The fields of the request body, in declaration order; `Score(q)` is `A{q+1}_Score`. */
  datatype Field = Score(q: nat) | Age | Gender | Jundice | Autism | UsedAppBefore

  /** The JSON body of POST /predict. A score missing from the body is `None`,
      and so is an age sent as `null`. */
  datatype Payload = Payload(
    scores: seq<Option<int>>,
    age: Option<int>,
    gender: string,
    jundice: string,
    autism: string,
    usedAppBefore: string)

  /** A request body that passed validation. */
  datatype PatientInput = PatientInput(
    scores: Store.Scores,
    age: int,
    gender: string,
    jundice: string,
    autism: string,
    usedAppBefore: string)

  predicate IsScore(v: int)
  {
    0 <= v <= 1
  }

  predicate IsGenderCode(s: string)
  {
    s == "m" || s == "f" || s == "M" || s == "F"
  }

  predicate IsYesNo(s: string)
  {
    s == "yes" || s == "no"
  }

  /** The constraints declared on every field of `PatientInput`. */
  predicate ValidPatient(p: PatientInput)
  {
    && (forall q :: 0 <= q < 10 ==> IsScore(p.scores[q]))
    && 1 <= p.age <= 100
    && IsGenderCode(p.gender)
    && IsYesNo(p.jundice)
    && IsYesNo(p.autism)
    && IsYesNo(p.usedAppBefore)
  }

  function ScoreField(req: Payload, q: nat): Option<int>
  {
    if q < |req.scores| then req.scores[q] else None
  }

  predicate ScoreOk(req: Payload, q: nat)
  {
    ScoreField(req, q).Some? && IsScore(ScoreField(req, q).value)
  }

  predicate AgeOk(req: Payload)
  {
    req.age.Some? && 1 <= req.age.value <= 100
  }

  /** `p` is the record the body denotes: every field present with p's value. */
  predicate Denotes(req: Payload, p: PatientInput)
  {
    && (forall q :: 0 <= q < 10 ==> ScoreField(req, q) == Some(p.scores[q]))
    && req.age == Some(p.age)
    && req.gender == p.gender
    && req.jundice == p.jundice
    && req.autism == p.autism
    && req.usedAppBefore == p.usedAppBefore
  }

  function ScoreErrors(req: Payload, n: nat): (errs: seq<Field>)
    requires n <= 10
    ensures forall f :: f in errs ==> f.Score? && f.q < n
    ensures forall q :: 0 <= q < n ==> (Score(q) in errs <==> !ScoreOk(req, q))
    ensures errs == [] <==> forall q :: 0 <= q < n ==> ScoreOk(req, q)
  {
    if n == 0 then []
    else ScoreErrors(req, n - 1) + (if ScoreOk(req, n - 1) then [] else [Score(n - 1)])
  }

  /** `[f]` when the field breaks its constraint, `[]` otherwise. */
  function Check(ok: bool, f: Field): (errs: seq<Field>)
    ensures f in errs <==> !ok
    ensures forall g :: g in errs ==> g == f
    ensures errs == [] <==> ok
  {
    if ok then [] else [f]
  }

  function OtherErrors(req: Payload): (errs: seq<Field>)
    ensures Age in errs <==> !AgeOk(req)
    ensures Gender in errs <==> !IsGenderCode(req.gender)
    ensures Jundice in errs <==> !IsYesNo(req.jundice)
    ensures Autism in errs <==> !IsYesNo(req.autism)
    ensures UsedAppBefore in errs <==> !IsYesNo(req.usedAppBefore)
    ensures forall f :: f in errs ==> !f.Score?
    ensures errs == [] <==> AgeOk(req) && IsGenderCode(req.gender) && IsYesNo(req.jundice)
                            && IsYesNo(req.autism) && IsYesNo(req.usedAppBefore)
  {
    Check(AgeOk(req), Age) + Check(IsGenderCode(req.gender), Gender) + Check(IsYesNo(req.jundice), Jundice)
    + Check(IsYesNo(req.autism), Autism) + Check(IsYesNo(req.usedAppBefore), UsedAppBefore)
  }

  /** Every field of the body is present and meets its constraint. */
  predicate FieldsOk(req: Payload)
  {
    && (forall q :: 0 <= q < 10 ==> ScoreOk(req, q))
    && AgeOk(req)
    && IsGenderCode(req.gender)
    && IsYesNo(req.jundice)
    && IsYesNo(req.autism)
    && IsYesNo(req.usedAppBefore)
  }

  /** Every field whose value is missing or breaks its constraint, in declaration order. */
  function Errors(req: Payload): (errs: seq<Field>)
    ensures forall q :: 0 <= q < 10 ==> (Score(q) in errs <==> !ScoreOk(req, q))
    ensures Age in errs <==> !AgeOk(req)
    ensures Gender in errs <==> !IsGenderCode(req.gender)
    ensures Jundice in errs <==> !IsYesNo(req.jundice)
    ensures Autism in errs <==> !IsYesNo(req.autism)
    ensures UsedAppBefore in errs <==> !IsYesNo(req.usedAppBefore)
    ensures forall f :: f in errs ==> !f.Score? || f.q < 10
    ensures errs == [] <==> FieldsOk(req)
  {
    var scoreErrs := ScoreErrors(req, 10);
    var otherErrs := OtherErrors(req);
    assert forall q :: Score(q) !in otherErrs;
    assert forall f :: f in scoreErrs ==> f.Score?;
    scoreErrs + otherErrs
  }

  /** A body whose only bad field is the age is refused for the age alone. */
  lemma OnlyAgeBad(req: Payload)
    requires ScoreErrors(req, 10) == []
    requires IsGenderCode(req.gender) && IsYesNo(req.jundice) && IsYesNo(req.autism) && IsYesNo(req.usedAppBefore)
    ensures Errors(req) == (if AgeOk(req) then [] else [Age])
  {
    assert OtherErrors(req) == Check(AgeOk(req), Age);
  }

  /** The ten scores of a body whose scores are all present and valid. */
  function PresentScores(req: Payload): (scores: Store.Scores)
    requires forall q :: 0 <= q < 10 ==> ScoreOk(req, q)
    ensures forall q :: 0 <= q < 10 ==> ScoreField(req, q) == Some(scores[q]) && IsScore(scores[q])
  {
    var scores := seq(10, q requires 0 <= q < 10 && ScoreOk(req, q) => ScoreField(req, q).value);
    assert forall q :: 0 <= q < 10 ==> ScoreOk(req, q) && Some(scores[q]) == ScoreField(req, q);
    scores
  }

  /** A body that denotes a valid record has no bad field. */
  lemma NoErrorsWhenValid(req: Payload, p: PatientInput)
    requires Denotes(req, p) && ValidPatient(p)
    ensures Errors(req) == []
  {
    assert FieldsOk(req);
  }

  /** Request validation: the body is accepted exactly when it denotes a valid
      `PatientInput`; otherwise the request is answered with the list of bad fields. */
  function Validate(req: Payload): (r: Result<PatientInput, seq<Field>>)
    ensures r.Success? ==> ValidPatient(r.value) && Denotes(req, r.value)
    ensures r.Failure? ==> |r.error| > 0 && forall p :: Denotes(req, p) ==> !ValidPatient(p)
    ensures r.Success? <==> FieldsOk(req)
    ensures r.Failure? ==> r.error == Errors(req)
  {
    var errs := Errors(req);
    if |errs| == 0 then
      assert forall q :: 0 <= q < 10 ==> Score(q) !in errs;
      Success(PatientInput(PresentScores(req), req.age.value, req.gender, req.jundice, req.autism, req.usedAppBefore))
    else
      assert forall p :: Denotes(req, p) ==> !ValidPatient(p) by {
        forall p | Denotes(req, p) ensures !ValidPatient(p) {
          if ValidPatient(p) {
            NoErrorsWhenValid(req, p);
          }
        }
      }
      Failure(errs)
  }

  /** A body that denotes some record is accepted exactly when that record is valid. */
  lemma ValidateIff(req: Payload, p: PatientInput)
    requires Denotes(req, p)
    ensures Validate(req).Success? <==> ValidPatient(p)
    ensures Validate(req).Success? ==> Validate(req).value == p
  {
    if ValidPatient(p) {
      var r := Validate(req);
      assert r.Success?;
      assert r.value.scores == p.scores;
    }
  }

  function LowerChar(c: char): char
  {
    if 'A' <= c <= 'Z' then (c as int + 32) as char else c
  }

  /** `str.lower()` on ASCII letters; every other character is kept. */
  function Lower(s: string): (r: string)
    ensures |r| == |s|
    ensures forall i :: 0 <= i < |s| ==> r[i] == LowerChar(s[i])
  {
    seq(|s|, i requires 0 <= i < |s| => LowerChar(s[i]))
  }

  /** Lower-casing maps the accepted gender codes onto "m" and "f" and is idempotent. */
  lemma LowerGender(g: string)
    requires IsGenderCode(g)
    ensures Lower(g) == "m" || Lower(g) == "f"
    ensures Lower(g) == "m" <==> (g == "m" || g == "M")
  {
  }

  lemma LowerIdempotent(s: string)
    ensures Lower(Lower(s)) == Lower(s)
  {
  }

  /** The screening row the handler stores for an accepted request. */
  function ToScreening(p: PatientInput, id: int): (s: Store.Screening)
    ensures s.id == id && s.scores == p.scores && s.age == p.age
    ensures s.jundice == p.jundice && s.autism == p.autism && s.usedAppBefore == p.usedAppBefore
    ensures |s.gender| == |p.gender|
    ensures ValidPatient(p) ==> (s.gender == "m" <==> (p.gender == "m" || p.gender == "M"))
    ensures ValidPatient(p) ==> Store.WellFormedEntry(Store.Entry(s, None))
  {
    if ValidPatient(p) then LowerGender(p.gender); Store.Screening(id, p.scores, p.age, Lower(p.gender), p.jundice, p.autism, p.usedAppBefore)
    else Store.Screening(id, p.scores, p.age, Lower(p.gender), p.jundice, p.autism, p.usedAppBefore)
  }

  /** The response body of /predict. It has no recommendation field. */
  datatype PredictionOutput = PredictionOutput(
    id: int,
    prediction: string,
    confidence: real,
    modelType: string,
    createdAt: string)

  const ResponseKeys: set<string> := {"id", "prediction", "confidence", "model_type", "created_at"}

  function Encode(o: PredictionOutput): (obj: Json.Object)
    ensures obj.Keys == ResponseKeys
    ensures "recommendation" !in obj
  {
    map["id" := Json.Int(o.id),
        "prediction" := Json.Str(o.prediction),
        "confidence" := Json.Num(o.confidence),
        "model_type" := Json.Str(o.modelType),
        "created_at" := Json.Str(o.createdAt)]
  }

  /** Reading a response object back; any missing or mistyped field gives `None`. */
  function Decode(obj: Json.Object): Option<PredictionOutput>
  {
    if && "id" in obj && obj["id"].Int?
       && "prediction" in obj && obj["prediction"].Str?
       && "confidence" in obj && obj["confidence"].Num?
       && "model_type" in obj && obj["model_type"].Str?
       && "created_at" in obj && obj["created_at"].Str?
    then Some(PredictionOutput(obj["id"].i, obj["prediction"].s, obj["confidence"].r,
                               obj["model_type"].s, obj["created_at"].s))
    else None
  }

  lemma DecodeEncode(o: PredictionOutput)
    ensures Decode(Encode(o)) == Some(o)
  {
  }

  /** The response built from a stored result row. */
  function OutputOf(r: Store.ResultRow): (o: PredictionOutput)
    ensures o.id == r.id && o.prediction == r.prediction && o.confidence == r.confidence
    ensures o.modelType == r.modelVersion && o.createdAt == r.createdAt
  {
    PredictionOutput(r.id, r.prediction, r.confidence, r.modelVersion, r.createdAt)
  }

  /** How /predict answers: the prediction, the 422 with the invalid fields that
      request validation produces, or the 400 sent when the classifier raises. */
  datatype Reply = Predicted(output: PredictionOutput) | Unprocessable(errors: seq<Field>) | BadRequest

  /** The database after a request and the reply sent back. */
  datatype Handled = Handled(db: Store.Db, reply: Reply)

  /** POST /predict. The trained model's answer (`None` when the classifier
      raises), the row identifiers and the server timestamp are inputs. The
      screening is committed before the classifier runs, so the rollback after
      a classifier failure cannot remove it: it stays without a result. */
  function HandlePredict(
    db: Store.Db, req: Payload, model: Option<Classifier.ModelOutput>, modelType: string,
    screeningId: int, resultId: int, createdAt: string): (h: Handled)
    ensures h.reply.Unprocessable? <==> Errors(req) != []
    ensures h.reply.Unprocessable? ==> h.reply.errors == Errors(req) && h.db == db
    ensures h.reply.BadRequest? <==> Errors(req) == [] && model.None?
    ensures !h.reply.Unprocessable? ==>
      && |h.db| == |db| + 1
      && h.db[..|db|] == db
      && var e := h.db[|db|];
      && Denotes(req, PatientInput(e.screening.scores, e.screening.age, req.gender,
                                   e.screening.jundice, e.screening.autism, e.screening.usedAppBefore))
      && e.screening.gender == Lower(req.gender)
      && e.screening.id == screeningId
      && (e.result.Some? <==> h.reply.Predicted?)
    ensures h.reply.Predicted? ==>
      && var e := h.db[|db|];
      && e.result.Some?
      && e.result.value.screeningId == screeningId
      && (e.result.value.prediction == Classifier.PositiveLabel <==> model.value.predictedClass == 1)
      && e.result.value.confidence == model.value.probability
      && e.result.value == Store.ResultRow(
           resultId, screeningId,
           if model.value.predictedClass == 1 then Classifier.PositiveLabel else Classifier.NegativeLabel,
           model.value.probability, modelType, createdAt)
      && h.reply.output == OutputOf(e.result.value)
    ensures Store.WellFormed(db) ==> Store.WellFormed(h.db)
  {
    match Validate(req)
    case Failure(errs) => Handled(db, Unprocessable(errs))
    case Success(p) =>
      var screening := ToScreening(p, screeningId);
      match model
      case None =>
        Handled(db + [Store.Entry(screening, None)], BadRequest)
      case Some(m) =>
        var predicted := Classifier.Predict(m, modelType);
        var row := Store.ResultRow(resultId, screeningId, predicted.prediction,
                                   predicted.probability, predicted.modelType, createdAt);
        var db' := db + [Store.Entry(screening, Some(row))];
        assert Store.WellFormedEntry(db'[|db|]);
        Handled(db', Predicted(OutputOf(row)))
  }

  /** The /stats summary. */
  datatype Stats = Stats(totalScreenings: nat, positiveCases: nat, negativeCases: nat, positiveRate: real)

  function GetStatistics(db: Store.Db): (s: Stats)
    ensures s.totalScreenings == |db|
    ensures s.positiveCases == Count(db, Store.IsPositive)
    ensures s.negativeCases == Count(db, Store.IsNegative)
    ensures s.positiveCases + s.negativeCases <= s.totalScreenings
    ensures s.positiveRate == Store.PositiveRate(db)
    ensures 0.0 <= s.positiveRate <= 1.0
  {
    Store.ResultCounts(db);
    Stats(|db|, Count(db, Store.IsPositive), Count(db, Store.IsNegative), Store.PositiveRate(db))
  }
}

=== FILE: classifier.dfy ===
/** The decision tables of the TEA classifier: the label given to the model's
    class, the confidence level derived from the class-1 probability, and the
    recommendation text. The model itself (feature preparation, scaling, the
    trained estimator) is an input: `ModelOutput` carries its class and probability. */
module Classifier {

  const PositiveLabel: string := "TEA"
  const NegativeLabel: string := "Sem TEA"

  /** The four confidence levels, from most to least confident. */
  datatype Level = MuitoAlta | Alta | Media | Baixa {

    function Name(): string
    {
      match this
      case MuitoAlta => "Muito Alta"
      case Alta => "Alta"
      case Media => "Média"
      case Baixa => "Baixa"
    }

    /** Position in the order Baixa < Media < Alta < MuitoAlta. */
    function Rank(): nat
    {
      match this
      case Baixa => 0
      case Media => 1
      case Alta => 2
      case MuitoAlta => 3
    }
  }

  /** `abs(probability - 0.5)` */
  function Distance(p: real): (d: real)
    ensures d >= 0.0
    ensures d == p - 0.5 || d == 0.5 - p
  {
    if p >= 0.5 then p - 0.5 else 0.5 - p
  }

  /** The confidence level of a class-1 probability. */
  function ConfidenceLevel(p: real): (l: Level)
    ensures l == MuitoAlta <==> Distance(p) >= 0.4
    ensures l == Alta <==> 0.3 <= Distance(p) < 0.4
    ensures l == Media <==> 0.2 <= Distance(p) < 0.3
    ensures l == Baixa <==> Distance(p) < 0.2
  {
    var d := Distance(p);
    if d >= 0.4 then MuitoAlta
    else if d >= 0.3 then Alta
    else if d >= 0.2 then Media
    else Baixa
  }

  /** Reference reading of the table: the level's rank is the number of the
      thresholds 0.2, 0.3 and 0.4 that the distance from 0.5 reaches. */
  function ThresholdsReached(d: real): nat
  {
    (if d >= 0.2 then 1 else 0) + (if d >= 0.3 then 1 else 0) + (if d >= 0.4 then 1 else 0)
  }

  lemma LevelCountsThresholds(p: real)
    ensures ConfidenceLevel(p).Rank() == ThresholdsReached(Distance(p))
  {
  }

  /** The level only depends on the distance from 0.5, so p and 1 - p agree. */
  lemma LevelSymmetric(p: real)
    ensures ConfidenceLevel(p) == ConfidenceLevel(1.0 - p)
  {
  }

  /** Farther from 0.5 is never less confident. */
  lemma LevelMonotone(p: real, q: real)
    requires Distance(p) <= Distance(q)
    ensures ConfidenceLevel(p).Rank() <= ConfidenceLevel(q).Rank()
  {
  }

  const PriorityReferral: string := "Encaminhamento prioritário para avaliação especializada."
  const Referral: string := "Encaminhamento para avaliação especializada recomendado."
  const ConsiderReferral: string := "Considerar encaminhamento para avaliação. Reavaliar em 3 meses."
  const Monitoring: string := "Monitoramento recomendado. Reavaliar em 6 meses."
  const LowRisk: string := "Baixo risco. Manter acompanhamento regular."

  /** The recommendation for a predicted class and its class-1 probability. */
  function Recommendation(prediction: int, p: real): (r: string)
    ensures prediction == 1 ==> (r == PriorityReferral <==> p >= 0.8)
    ensures prediction == 1 ==> (r == Referral <==> 0.6 <= p < 0.8)
    ensures prediction == 1 ==> (r == ConsiderReferral <==> p < 0.6)
    ensures prediction != 1 ==> (r == Monitoring <==> p >= 0.4)
    ensures prediction != 1 ==> (r == LowRisk <==> p < 0.4)
    ensures r in {PriorityReferral, Referral, ConsiderReferral, Monitoring, LowRisk}
  {
    if prediction == 1 then
      if p >= 0.8 then PriorityReferral
      else if p >= 0.6 then Referral
      else ConsiderReferral
    else
      if p >= 0.4 then Monitoring
      else LowRisk
  }

  /** How urgent a recommendation is, from the low-risk text (0) to the priority referral (4). */
  function Urgency(r: string): nat
  {
    if r == PriorityReferral then 4
    else if r == Referral then 3
    else if r == ConsiderReferral then 2
    else if r == Monitoring then 1
    else 0
  }

  /** Within a class, a higher probability never yields a less urgent text, and
      every text for class 1 is more urgent than every text for any other class:
      the text alone tells whether the prediction was class 1. */
  lemma RecommendationUrgency(c: int, p: real, q: real)
    ensures p <= q ==> Urgency(Recommendation(c, p)) <= Urgency(Recommendation(c, q))
    ensures Urgency(Recommendation(c, p)) >= 2 <==> c == 1
  {
  }

  /** What the trained model says about one input: its class and the probability of class 1. */
  datatype ModelOutput = ModelOutput(predictedClass: int, probability: real)

  /** The dictionary `TEAClassifier.predict` returns. */
  datatype Prediction = Prediction(
    prediction: string,
    probability: real,
    confidence: Level,
    recommendation: string,
    modelType: string)

  function Predict(m: ModelOutput, modelType: string): (r: Prediction)
    ensures r.prediction == PositiveLabel <==> m.predictedClass == 1
    ensures r.prediction == NegativeLabel <==> m.predictedClass != 1
    ensures r.probability == m.probability
    ensures r.confidence.Rank() == ThresholdsReached(Distance(m.probability))
    ensures r.confidence == ConfidenceLevel(m.probability)
    ensures r.recommendation == Recommendation(m.predictedClass, m.probability)
    ensures Urgency(r.recommendation) >= 2 <==> m.predictedClass == 1
    ensures r.modelType == modelType
  {
    Prediction(
      if m.predictedClass == 1 then PositiveLabel else NegativeLabel,
      m.probability,
      ConfidenceLevel(m.probability),
      Recommendation(m.predictedClass, m.probability),
      modelType)
  }
}

=== FILE: common.dfy ===
/** Shared vocabulary of the model: optional values, success-or-error outcomes,
    counting over sequences, and the guarded ratio the backend uses for every
    rate and average (`num / den if den > 0 else 0`). */
module Common {

  /** A value that may be absent: a missing JSON key, `NaN`, SQL NULL. */
  datatype Option<+T> = None | Some(value: T)

  /** A computation that either produces a value or fails with an error. */
  datatype Result<+T, +E> = Success(value: T) | Failure(error: E)

  /** Python's guarded division `num / den if den > 0 else 0`, as an exact real. */
  function Ratio(num: int, den: nat): (r: real)
    ensures den == 0 ==> r == 0.0
    ensures den > 0 ==> r * (den as real) == num as real
    ensures 0 <= num <= den ==> 0.0 <= r <= 1.0
  {
    if den > 0 then
      var q := num as real / den as real;
      assert q * (den as real) == num as real;
      q
    else 0.0
  }

  function Sum(xs: seq<int>): int
  {
    if |xs| == 0 then 0 else Sum(xs[..|xs| - 1]) + xs[|xs| - 1]
  }

  /** Every element is a 0/1 answer. */
  predicate AllBinary(xs: seq<int>)
  {
    forall i :: 0 <= i < |xs| ==> xs[i] == 0 || xs[i] == 1
  }

  lemma {:induction false} SumOfBinary(xs: seq<int>)
    requires AllBinary(xs)
    ensures 0 <= Sum(xs) <= |xs|
  {
    if |xs| > 0 {
      SumOfBinary(xs[..|xs| - 1]);
    }
  }

  /** `x` is the value `v`. */
  predicate IsValue(v: int, x: int)
  {
    x == v
  }

  /** A list of 0/1 answers sums to its number of ones. */
  lemma {:induction false} SumOfBinaryCountsOnes(xs: seq<int>)
    requires AllBinary(xs)
    ensures Sum(xs) == CountIn(xs, 1, IsValue)
  {
    if |xs| > 0 {
      CountInStep(xs, 1, IsValue);
      SumOfBinaryCountsOnes(xs[..|xs| - 1]);
    }
  }

  /** The arithmetic mean of a list, 0 for the empty list
      (`sum(xs) / len(xs) if xs else 0`). */
  function Mean(xs: seq<int>): (r: real)
    ensures |xs| == 0 ==> r == 0.0
    ensures |xs| > 0 ==> r * (|xs| as real) == Sum(xs) as real
    ensures AllBinary(xs) ==> 0.0 <= r <= 1.0
  {
    if AllBinary(xs) then SumOfBinary(xs); Ratio(Sum(xs), |xs|)
    else Ratio(Sum(xs), |xs|)
  }

  /** Number of elements of `xs` that satisfy `p`. */
  function Count<T>(xs: seq<T>, p: T -> bool): (n: nat)
    ensures n <= |xs|
  {
    if |xs| == 0 then 0
    else Count(xs[..|xs| - 1], p) + (if p(xs[|xs| - 1]) then 1 else 0)
  }

  /** Number of elements of `xs` related to the bucket `b` by `rel`. */
  function CountIn<B, T>(xs: seq<T>, b: B, rel: (B, T) -> bool): (n: nat)
    ensures n <= |xs|
  {
    Count(xs, x => rel(b, x))
  }

  /** Counting is monotone in the predicate. */
  lemma {:induction false} CountMono<T>(xs: seq<T>, p: T -> bool, q: T -> bool)
    requires forall x :: p(x) ==> q(x)
    ensures Count(xs, p) <= Count(xs, q)
  {
    if |xs| > 0 {
      CountMono(xs[..|xs| - 1], p, q);
    }
  }

  /** Two predicates that never hold together, each stronger than `r`, count
      together at most what `r` counts. */
  lemma {:induction false} CountDisjoint<T>(xs: seq<T>, p: T -> bool, q: T -> bool, r: T -> bool)
    requires forall x :: !(p(x) && q(x))
    requires forall x :: p(x) ==> r(x)
    requires forall x :: q(x) ==> r(x)
    ensures Count(xs, p) + Count(xs, q) <= Count(xs, r)
  {
    if |xs| > 0 {
      CountDisjoint(xs[..|xs| - 1], p, q, r);
    }
  }

  lemma {:induction false} CountAppend<T>(xs: seq<T>, x: T, p: T -> bool)
    ensures Count(xs + [x], p) == Count(xs, p) + (if p(x) then 1 else 0)
  {
    assert (xs + [x])[..|xs + [x]| - 1] == xs;
  }

  lemma CountInStep<B, T>(xs: seq<T>, b: B, rel: (B, T) -> bool)
    requires |xs| > 0
    ensures CountIn(xs, b, rel)
            == CountIn(xs[..|xs| - 1], b, rel) + (if rel(b, xs[|xs| - 1]) then 1 else 0)
  {
  }

  /** A bucket relation that implies another counts no more. */
  lemma {:induction false} CountInMono<B, T>(xs: seq<T>, b: B, rel: (B, T) -> bool, rel': (B, T) -> bool)
    requires forall x :: rel(b, x) ==> rel'(b, x)
    ensures CountIn(xs, b, rel) <= CountIn(xs, b, rel')
  {
    if |xs| > 0 {
      CountInStep(xs, b, rel);
      CountInStep(xs, b, rel');
      CountInMono(xs[..|xs| - 1], b, rel, rel');
    }
  }

  /** Two buckets no element shares count every element at most once. */
  lemma {:induction false} CountInDisjoint<B, T>(xs: seq<T>, b: B, b': B, rel: (B, T) -> bool)
    requires forall x :: !(rel(b, x) && rel(b', x))
    ensures CountIn(xs, b, rel) + CountIn(xs, b', rel) <= |xs|
  {
    if |xs| > 0 {
      CountInStep(xs, b, rel);
      CountInStep(xs, b', rel);
      CountInDisjoint(xs[..|xs| - 1], b, b', rel);
    }
  }

  /** If every element lies in exactly one of two buckets, the two counts add
      up to the length. */
  lemma {:induction false} CountInCover<B, T>(xs: seq<T>, b: B, b': B, rel: (B, T) -> bool)
    requires forall i :: 0 <= i < |xs| ==> rel(b, xs[i]) != rel(b', xs[i])
    ensures CountIn(xs, b, rel) + CountIn(xs, b', rel) == |xs|
  {
    if |xs| > 0 {
      CountInStep(xs, b, rel);
      CountInStep(xs, b', rel);
      CountInCover(xs[..|xs| - 1], b, b', rel);
    }
  }

  /** How many buckets of `bs` the element `x` falls into. */
  function Hits<B, T>(bs: seq<B>, x: T, rel: (B, T) -> bool): nat
  {
    if |bs| == 0 then 0 else (if rel(bs[0], x) then 1 else 0) + Hits(bs[1..], x, rel)
  }

  /** The bucket counts of `xs`, summed over all buckets. */
  function Tally<B, T>(bs: seq<B>, xs: seq<T>, rel: (B, T) -> bool): nat
  {
    if |bs| == 0 then 0 else CountIn(xs, bs[0], rel) + Tally(bs[1..], xs, rel)
  }

  lemma {:induction false} TallyStep<B, T>(bs: seq<B>, xs: seq<T>, rel: (B, T) -> bool)
    requires |xs| > 0
    ensures Tally(bs, xs, rel)
            == Tally(bs, xs[..|xs| - 1], rel) + Hits(bs, xs[|xs| - 1], rel)
  {
    if |bs| > 0 {
      TallyStep(bs[1..], xs, rel);
    }
  }

  /** If every element in `dom` lies in exactly one bucket and every other element
      in none, the bucket counts add up to the number of elements in `dom`. */
  lemma {:induction false} TallyPartition<B, T>(bs: seq<B>, xs: seq<T>, rel: (B, T) -> bool, dom: T -> bool)
    requires forall x :: Hits(bs, x, rel) == (if dom(x) then 1 else 0)
    ensures Tally(bs, xs, rel) == Count(xs, dom)
  {
    if |xs| == 0 {
      TallyEmpty(bs, xs, rel);
    } else {
      TallyStep(bs, xs, rel);
      TallyPartition(bs, xs[..|xs| - 1], rel, dom);
    }
  }

  lemma {:induction false} TallyEmpty<B, T>(bs: seq<B>, xs: seq<T>, rel: (B, T) -> bool)
    requires |xs| == 0
    ensures Tally(bs, xs, rel) == 0
  {
    if |bs| > 0 {
      TallyEmpty(bs[1..], xs, rel);
    }
  }

  /** A proper subset of a finite set is smaller. */
  lemma {:induction false} ProperSubsetSmaller<T>(a: set<T>, b: set<T>)
    requires a < b
    ensures |a| < |b|
  {
    var x :| x in b && x !in a;
    SubsetNoLarger(a, b - {x});
    assert b == (b - {x}) + {x};
  }

  lemma {:induction false} SubsetNoLarger<T>(a: set<T>, b: set<T>)
    requires a <= b
    ensures |a| <= |b|
    decreases |a|
  {
    if a != {} {
      var x :| x in a;
      SubsetNoLarger(a - {x}, b - {x});
      assert a == (a - {x}) + {x};
      assert b == (b - {x}) + {x};
    }
  }
}

=== FILE: dashboard.dfy ===
/** The dashboard endpoints as pure folds over the database: summary KPIs, the
    age and confidence histograms, the gender and risk-factor group counts, and
    the per-question score averages. */
module Dashboard {
  import opened Common
  import Classifier
  import Store
  import JsInt

  // ---------------------------------------------------------------- KPIs

  datatype Kpis = Kpis(
    totalScreenings: nat,
    totalResults: nat,
    positiveCases: nat,
    negativeCases: nat,
    positiveRate: real,
    avgAge: real)

  function Ages(db: Store.Db): (ages: seq<int>)
    ensures |ages| == |db|
    ensures forall i :: 0 <= i < |db| ==> ages[i] == db[i].screening.age
  {
    seq(|db|, i requires 0 <= i < |db| => db[i].screening.age)
  }

  /** `avg(age)` over all screenings, 0 for an empty table. */
  function AverageAge(db: Store.Db): (r: real)
    ensures |db| == 0 ==> r == 0.0
    ensures |db| > 0 ==> r * (|db| as real) == Sum(Ages(db)) as real
  {
    Mean(Ages(db))
  }

  /** GET /api/dashboard/kpis, without the seven-day count and the rounding. */
  function GetKpis(db: Store.Db): (k: Kpis)
    ensures k.totalScreenings == |db|
    ensures k.totalResults == Count(db, Store.HasResult) <= k.totalScreenings
    ensures k.positiveCases == Count(db, Store.IsPositive)
    ensures k.negativeCases == Count(db, Store.IsNegative)
    ensures k.positiveCases + k.negativeCases <= k.totalResults
    ensures k.positiveRate == Store.PositiveRate(db) && 0.0 <= k.positiveRate <= 1.0
    ensures k.avgAge == AverageAge(db)
  {
    Store.ResultCounts(db);
    Kpis(|db|, Count(db, Store.HasResult), Count(db, Store.IsPositive), Count(db, Store.IsNegative),
         Store.PositiveRate(db), AverageAge(db))
  }

  // ---------------------------------------------------------- age buckets

  /** An inclusive age range `lo..hi`. */
  datatype AgeRange = AgeRange(name: string, lo: int, hi: int)

  const AgeRanges: seq<AgeRange> := [
    AgeRange("0-5", 0, 5),
    AgeRange("6-12", 6, 12),
    AgeRange("13-17", 13, 17),
    AgeRange("18-25", 18, 25),
    AgeRange("26-35", 26, 35),
    AgeRange("36-50", 36, 50),
    AgeRange("51+", 51, 150)
  ]

  predicate InAgeRange(rg: AgeRange, e: Store.Entry)
  {
    rg.lo <= e.screening.age <= rg.hi
  }

  predicate PositiveInAgeRange(rg: AgeRange, e: Store.Entry)
  {
    InAgeRange(rg, e) && Store.IsPositive(e)
  }

  /** Ages the histogram covers. */
  predicate AgeCovered(e: Store.Entry)
  {
    0 <= e.screening.age <= 150
  }

  /** The ranges start at 0, end at 150, ascend and leave no gap. */
  lemma AgeRangesContiguous()
    ensures AgeRanges[0].lo == 0 && AgeRanges[|AgeRanges| - 1].hi == 150
    ensures forall i :: 0 <= i < |AgeRanges| ==> AgeRanges[i].lo <= AgeRanges[i].hi
    ensures forall i :: 0 <= i < |AgeRanges| - 1 ==> AgeRanges[i].hi + 1 == AgeRanges[i + 1].lo
  {
  }

  /** Every age in 0..150 falls in exactly one range, any other age in none. */
  lemma AgeRangesPartition(e: Store.Entry)
    ensures Hits(AgeRanges, e, InAgeRange) == (if AgeCovered(e) then 1 else 0)
  {
    var a := e.screening.age;
    assert AgeRanges[1..][1..][1..][1..][1..][1..][1..] == [];
  }

  datatype AgeBucket = AgeBucket(range: string, total: nat, positive: nat, negative: int, positiveRate: real)

  function AgeBucketOf(db: Store.Db, rg: AgeRange): (b: AgeBucket)
    ensures b.range == rg.name
    ensures b.total == CountIn(db, rg, InAgeRange)
    ensures b.positive == CountIn(db, rg, PositiveInAgeRange)
    ensures b.positive <= b.total
    ensures b.negative == b.total - b.positive && b.negative >= 0
    ensures b.total == 0 ==> b.positiveRate == 0.0
    ensures b.total > 0 ==> b.positiveRate * (b.total as real) == b.positive as real
    ensures 0.0 <= b.positiveRate <= 1.0
  {
    var total := CountIn(db, rg, InAgeRange);
    var positive := CountIn(db, rg, PositiveInAgeRange);
    CountInMono(db, rg, PositiveInAgeRange, InAgeRange);
    AgeBucket(rg.name, total, positive, total - positive, Ratio(positive, total))
  }

  function AgeBuckets(db: Store.Db, rs: seq<AgeRange>): (bs: seq<AgeBucket>)
    ensures |bs| == |rs|
    ensures forall i :: 0 <= i < |rs| ==> bs[i] == AgeBucketOf(db, rs[i])
  {
    if |rs| == 0 then [] else [AgeBucketOf(db, rs[0])] + AgeBuckets(db, rs[1..])
  }

  function AgeTotal(bs: seq<AgeBucket>): nat
  {
    if |bs| == 0 then 0 else bs[0].total + AgeTotal(bs[1..])
  }

  lemma {:induction false} AgeTotalIsTally(db: Store.Db, rs: seq<AgeRange>)
    ensures AgeTotal(AgeBuckets(db, rs)) == Tally(rs, db, InAgeRange)
  {
    if |rs| > 0 {
      AgeTotalIsTally(db, rs[1..]);
    }
  }

  /** GET /api/dashboard/age-distribution: one bucket per range, in order; the
      bucket totals add up to the number of screenings aged 0 to 150. */
  function AgeDistribution(db: Store.Db): (bs: seq<AgeBucket>)
    ensures |bs| == |AgeRanges|
    ensures forall i :: 0 <= i < |bs| ==> bs[i] == AgeBucketOf(db, AgeRanges[i])
    ensures forall i :: 0 <= i < |bs| ==> bs[i].range == AgeRanges[i].name
    ensures forall i :: 0 <= i < |bs| ==> bs[i].total == CountIn(db, AgeRanges[i], InAgeRange)
    ensures forall i :: 0 <= i < |bs| ==> bs[i].positive == CountIn(db, AgeRanges[i], PositiveInAgeRange)
    ensures forall i :: 0 <= i < |bs| ==> 0 <= bs[i].positive <= bs[i].total
    ensures forall i :: 0 <= i < |bs| ==> bs[i].negative == bs[i].total - bs[i].positive
    ensures forall i :: 0 <= i < |bs| ==> (bs[i].total == 0 ==> bs[i].positiveRate == 0.0)
    ensures AgeTotal(bs) == Count(db, AgeCovered)
  {
    AgeTotalCovered(db);
    AgeBuckets(db, AgeRanges)
  }

  /** The buckets together count every screening aged 0 to 150 once. */
  lemma AgeTotalCovered(db: Store.Db)
    ensures AgeTotal(AgeBuckets(db, AgeRanges)) == Count(db, AgeCovered)
  {
    AgeTotalIsTally(db, AgeRanges);
    forall e: Store.Entry
      ensures Hits(AgeRanges, e, InAgeRange) == (if AgeCovered(e) then 1 else 0)
    {
      AgeRangesPartition(e);
    }
    TallyPartition(AgeRanges, db, InAgeRange, AgeCovered);
  }

  // --------------------------------------------------- confidence buckets

  /** A half-open confidence range `[lo, hi)`. */
  datatype ConfidenceRange = ConfidenceRange(name: string, lo: real, hi: real)

  const ConfidenceRanges: seq<ConfidenceRange> := [
    ConfidenceRange("Muito Baixa", 0.0, 0.5),
    ConfidenceRange("Baixa", 0.5, 0.7),
    ConfidenceRange("Média", 0.7, 0.85),
    ConfidenceRange("Alta", 0.85, 0.95),
    ConfidenceRange("Muito Alta", 0.95, 1.0)
  ]

  predicate InConfidenceRange(rg: ConfidenceRange, r: Store.ResultRow)
  {
    rg.lo <= r.confidence < rg.hi
  }

  predicate PositiveInConfidenceRange(rg: ConfidenceRange, r: Store.ResultRow)
  {
    InConfidenceRange(rg, r) && r.prediction == Classifier.PositiveLabel
  }

  /** Confidences the histogram covers: `[0, 1)`. */
  predicate ConfidenceCovered(r: Store.ResultRow)
  {
    0.0 <= r.confidence < 1.0
  }

  lemma ConfidenceRangesContiguous()
    ensures ConfidenceRanges[0].lo == 0.0 && ConfidenceRanges[|ConfidenceRanges| - 1].hi == 1.0
    ensures forall i :: 0 <= i < |ConfidenceRanges| ==> ConfidenceRanges[i].lo < ConfidenceRanges[i].hi
    ensures forall i :: 0 <= i < |ConfidenceRanges| - 1 ==> ConfidenceRanges[i].hi == ConfidenceRanges[i + 1].lo
  {
  }

  /** A confidence in [0, 1) falls in exactly one range; any other, 1.0 included, in none. */
  lemma ConfidenceRangesPartition(r: Store.ResultRow)
    ensures Hits(ConfidenceRanges, r, InConfidenceRange) == (if ConfidenceCovered(r) then 1 else 0)
  {
    assert ConfidenceRanges[1..][1..][1..][1..][1..] == [];
  }

  datatype ConfidenceBucket = ConfidenceBucket(range: string, count: nat, positive: nat, negative: int)

  function ConfidenceBucketOf(rs: seq<Store.ResultRow>, rg: ConfidenceRange): (b: ConfidenceBucket)
    ensures b.range == rg.name
    ensures b.count == CountIn(rs, rg, InConfidenceRange)
    ensures b.positive == CountIn(rs, rg, PositiveInConfidenceRange)
    ensures b.positive <= b.count
    ensures b.negative == b.count - b.positive && b.negative >= 0
  {
    var count := CountIn(rs, rg, InConfidenceRange);
    var positive := CountIn(rs, rg, PositiveInConfidenceRange);
    CountInMono(rs, rg, PositiveInConfidenceRange, InConfidenceRange);
    ConfidenceBucket(rg.name, count, positive, count - positive)
  }

  function ConfidenceBuckets(rs: seq<Store.ResultRow>, cs: seq<ConfidenceRange>): (bs: seq<ConfidenceBucket>)
    ensures |bs| == |cs|
    ensures forall i :: 0 <= i < |cs| ==> bs[i] == ConfidenceBucketOf(rs, cs[i])
  {
    if |cs| == 0 then [] else [ConfidenceBucketOf(rs, cs[0])] + ConfidenceBuckets(rs, cs[1..])
  }

  function ConfidenceTotal(bs: seq<ConfidenceBucket>): nat
  {
    if |bs| == 0 then 0 else bs[0].count + ConfidenceTotal(bs[1..])
  }

  lemma {:induction false} ConfidenceTotalIsTally(rs: seq<Store.ResultRow>, cs: seq<ConfidenceRange>)
    ensures ConfidenceTotal(ConfidenceBuckets(rs, cs)) == Tally(cs, rs, InConfidenceRange)
  {
    if |cs| > 0 {
      ConfidenceTotalIsTally(rs, cs[1..]);
    }
  }

  /** GET /api/dashboard/confidence-distribution over the results table: the
      counts add up to the number of results with confidence in [0, 1), which is
      at most the number of results. */
  function ConfidenceDistribution(db: Store.Db): (bs: seq<ConfidenceBucket>)
    ensures |bs| == |ConfidenceRanges|
    ensures forall i :: 0 <= i < |bs| ==> bs[i] == ConfidenceBucketOf(Store.Results(db), ConfidenceRanges[i])
    ensures forall i :: 0 <= i < |bs| ==> bs[i].range == ConfidenceRanges[i].name
    ensures forall i :: 0 <= i < |bs| ==> bs[i].count == CountIn(Store.Results(db), ConfidenceRanges[i], InConfidenceRange)
    ensures forall i :: 0 <= i < |bs| ==>
              bs[i].positive == CountIn(Store.Results(db), ConfidenceRanges[i], PositiveInConfidenceRange)
    ensures forall i :: 0 <= i < |bs| ==> 0 <= bs[i].positive <= bs[i].count
    ensures forall i :: 0 <= i < |bs| ==> bs[i].negative == bs[i].count - bs[i].positive
    ensures ConfidenceTotal(bs) == Count(Store.Results(db), ConfidenceCovered)
    ensures ConfidenceTotal(bs) <= Count(db, Store.HasResult)
  {
    var rs := Store.Results(db);
    var bs := ConfidenceBuckets(rs, ConfidenceRanges);
    ConfidenceTotalIsTally(rs, ConfidenceRanges);
    forall r: Store.ResultRow
      ensures Hits(ConfidenceRanges, r, InConfidenceRange) == (if ConfidenceCovered(r) then 1 else 0)
    {
      ConfidenceRangesPartition(r);
    }
    TallyPartition(ConfidenceRanges, rs, InConfidenceRange, ConfidenceCovered);
    bs
  }

  // ------------------------------------------------------- group counts

  /** The screening column a group-by query groups joined rows on. */
  datatype Dimension = ByGender | ByJundice | ByAutism

  function KeyOf(dim: Dimension, s: Store.Screening): string
  {
    match dim
    case ByGender => s.gender
    case ByJundice => s.jundice
    case ByAutism => s.autism
  }

  /** Rows whose `dim` column holds `key`; the bucket is the pair (dim, key). */
  predicate HasKey(bucket: (Dimension, string), r: Store.Row)
  {
    KeyOf(bucket.0, r.screening) == bucket.1
  }

  predicate PositiveWithKey(bucket: (Dimension, string), r: Store.Row)
  {
    HasKey(bucket, r) && Store.RowIsPositive(r)
  }

  /** One output row of `GROUP BY key` with `count(*)` and the number of positive results. */
  datatype Group = Group(key: string, total: nat, positive: nat)

  /** No group carries `key`. */
  predicate Absent(gs: seq<Group>, key: string)
  {
    forall i :: 0 <= i < |gs| ==> gs[i].key != key
  }

  predicate DistinctKeys(gs: seq<Group>)
  {
    forall i, j :: 0 <= i < j < |gs| ==> gs[i].key != gs[j].key
  }

  function GroupTotal(gs: seq<Group>): nat
  {
    if |gs| == 0 then 0 else gs[0].total + GroupTotal(gs[1..])
  }

  lemma {:induction false} GroupTotalUpdate(gs: seq<Group>, i: nat, g: Group)
    requires i < |gs|
    ensures GroupTotal(gs[i := g]) == GroupTotal(gs) - gs[i].total + g.total
  {
    if i > 0 {
      assert gs[i := g][1..] == gs[1..][i - 1 := g];
      GroupTotalUpdate(gs[1..], i - 1, g);
    }
  }

  lemma {:induction false} GroupTotalAppend(gs: seq<Group>, g: Group)
    ensures GroupTotal(gs + [g]) == GroupTotal(gs) + g.total
  {
    if |gs| > 0 {
      assert (gs + [g])[1..] == gs[1..] + [g];
      GroupTotalAppend(gs[1..], g);
    }
  }

  /** Position of the group for `key`, or |gs| when there is none. */
  function IndexOfKey(gs: seq<Group>, key: string): (i: nat)
    ensures i <= |gs|
    ensures i < |gs| ==> gs[i].key == key
    ensures i == |gs| ==> Absent(gs, key)
  {
    if |gs| == 0 then 0
    else if gs[0].key == key then 0
    else 1 + IndexOfKey(gs[1..], key)
  }

  /** Counts one row with `key` into the groups: its group grows by one, or a new group is appended. */
  function AddRow(gs: seq<Group>, key: string, positive: bool): (r: seq<Group>)
    ensures |r| == |gs| + (if Absent(gs, key) then 1 else 0)
    ensures forall j :: 0 <= j < |gs| && gs[j].key != key ==> r[j] == gs[j]
    ensures var i := IndexOfKey(gs, key);
            && r[i].key == key
            && r[i].total == 1 + (if i < |gs| then gs[i].total else 0)
            && r[i].positive == (if positive then 1 else 0) + (if i < |gs| then gs[i].positive else 0)
  {
    var i := IndexOfKey(gs, key);
    var p := if positive then 1 else 0;
    if i < |gs| then gs[i := Group(key, gs[i].total + 1, gs[i].positive + p)]
    else gs + [Group(key, 1, p)]
  }

  /** Each group counts exactly the rows with its key, and the rows among them
      with a positive result; no group is empty. */
  ghost predicate Counted(gs: seq<Group>, rows: seq<Store.Row>, dim: Dimension)
  {
    forall i :: 0 <= i < |gs| ==>
      && gs[i].total == CountIn(rows, (dim, gs[i].key), HasKey)
      && gs[i].positive == CountIn(rows, (dim, gs[i].key), PositiveWithKey)
      && 0 < gs[i].total
      && gs[i].positive <= gs[i].total
  }

  /** A key without a group has no row. */
  ghost predicate Complete(gs: seq<Group>, rows: seq<Store.Row>, dim: Dimension)
  {
    forall k :: Absent(gs, k) ==> CountIn(rows, (dim, k), HasKey) == 0
  }

  /** What a group list says about the rows it was built from. */
  ghost predicate Groups(gs: seq<Group>, rows: seq<Store.Row>, dim: Dimension)
  {
    && DistinctKeys(gs)
    && Counted(gs, rows, dim)
    && Complete(gs, rows, dim)
    && GroupTotal(gs) == |rows|
  }

  /** `GROUP BY` over the joined rows, groups in order of first appearance. Every
      group counts exactly the rows with its key, no key is counted twice, a key
      without a group has no row, and the totals add up to the number of rows. */
  function GroupBy(rows: seq<Store.Row>, dim: Dimension): (gs: seq<Group>)
    ensures Groups(gs, rows, dim)
  {
    if |rows| == 0 then []
    else
      var front := rows[..|rows| - 1];
      var r := rows[|rows| - 1];
      var gs0 := GroupBy(front, dim);
      assert front + [r] == rows;
      GroupByStep(front, r, dim, gs0);
      AddRow(gs0, KeyOf(dim, r.screening), Store.RowIsPositive(r))
  }

  lemma {:induction false} CountInLast(front: seq<Store.Row>, r: Store.Row, b: (Dimension, string))
    ensures CountIn(front + [r], b, HasKey) == CountIn(front, b, HasKey) + (if HasKey(b, r) then 1 else 0)
    ensures CountIn(front + [r], b, PositiveWithKey)
            == CountIn(front, b, PositiveWithKey) + (if PositiveWithKey(b, r) then 1 else 0)
  {
    var rows := front + [r];
    assert rows[..|rows| - 1] == front;
    CountInStep(rows, b, HasKey);
    CountInStep(rows, b, PositiveWithKey);
  }

  lemma {:induction false} GroupByStep(front: seq<Store.Row>, r: Store.Row, dim: Dimension, gs0: seq<Group>)
    requires Groups(gs0, front, dim)
    ensures Groups(AddRow(gs0, KeyOf(dim, r.screening), Store.RowIsPositive(r)), front + [r], dim)
  {
    if IndexOfKey(gs0, KeyOf(dim, r.screening)) < |gs0| {
      StepExisting(front, r, dim, gs0);
    } else {
      StepNew(front, r, dim, gs0);
    }
  }

  lemma {:induction false} StepExisting(front: seq<Store.Row>, r: Store.Row, dim: Dimension, gs0: seq<Group>)
    requires Groups(gs0, front, dim)
    requires IndexOfKey(gs0, KeyOf(dim, r.screening)) < |gs0|
    ensures Groups(AddRow(gs0, KeyOf(dim, r.screening), Store.RowIsPositive(r)), front + [r], dim)
  {
    var key := KeyOf(dim, r.screening);
    var gs := AddRow(gs0, key, Store.RowIsPositive(r));
    var i := IndexOfKey(gs0, key);
    ExistingCounted(front, r, dim, gs0);
    ExistingComplete(front, r, dim, gs0);
    assert DistinctKeys(gs) by {
      assert forall j :: 0 <= j < |gs| ==> gs[j].key == gs0[j].key;
    }
    GroupTotalUpdate(gs0, i, gs[i]);
  }

  lemma {:induction false} StepNew(front: seq<Store.Row>, r: Store.Row, dim: Dimension, gs0: seq<Group>)
    requires Groups(gs0, front, dim)
    requires IndexOfKey(gs0, KeyOf(dim, r.screening)) == |gs0|
    ensures Groups(AddRow(gs0, KeyOf(dim, r.screening), Store.RowIsPositive(r)), front + [r], dim)
  {
    var key := KeyOf(dim, r.screening);
    var gs := AddRow(gs0, key, Store.RowIsPositive(r));
    NewCounted(front, r, dim, gs0);
    NewComplete(front, r, dim, gs0);
    assert DistinctKeys(gs) by {
      assert forall j :: 0 <= j < |gs0| ==> gs[j] == gs0[j];
    }
    GroupTotalAppend(gs0, gs[|gs0|]);
  }

  /** A row whose key has a group is counted into that group. */
  lemma {:induction false} ExistingCounted(front: seq<Store.Row>, r: Store.Row, dim: Dimension, gs0: seq<Group>)
    requires Counted(gs0, front, dim) && DistinctKeys(gs0)
    requires IndexOfKey(gs0, KeyOf(dim, r.screening)) < |gs0|
    ensures Counted(AddRow(gs0, KeyOf(dim, r.screening), Store.RowIsPositive(r)), front + [r], dim)
  {
    var rows := front + [r];
    var key := KeyOf(dim, r.screening);
    var i := IndexOfKey(gs0, key);
    var gs := AddRow(gs0, key, Store.RowIsPositive(r));
    forall j | 0 <= j < |gs|
      ensures gs[j].total == CountIn(rows, (dim, gs[j].key), HasKey)
      ensures gs[j].positive == CountIn(rows, (dim, gs[j].key), PositiveWithKey)
    {
      assert gs[j].key == gs0[j].key;
      CountInLast(front, r, (dim, gs[j].key));
      if j != i {
        assert gs0[j].key != key;
        assert gs[j] == gs0[j];
      }
    }
  }

  lemma {:induction false} ExistingComplete(front: seq<Store.Row>, r: Store.Row, dim: Dimension, gs0: seq<Group>)
    requires Complete(gs0, front, dim)
    requires IndexOfKey(gs0, KeyOf(dim, r.screening)) < |gs0|
    ensures Complete(AddRow(gs0, KeyOf(dim, r.screening), Store.RowIsPositive(r)), front + [r], dim)
  {
    var key := KeyOf(dim, r.screening);
    var i := IndexOfKey(gs0, key);
    var gs := AddRow(gs0, key, Store.RowIsPositive(r));
    forall k | Absent(gs, k)
      ensures CountIn(front + [r], (dim, k), HasKey) == 0
    {
      assert gs[i].key == key;
      assert forall j :: 0 <= j < |gs| ==> gs[j].key == gs0[j].key;
      assert Absent(gs0, k);
      CountInLast(front, r, (dim, k));
    }
  }

  /** A row with a new key opens a group of its own. */
  lemma {:induction false} NewCounted(front: seq<Store.Row>, r: Store.Row, dim: Dimension, gs0: seq<Group>)
    requires Counted(gs0, front, dim) && Complete(gs0, front, dim)
    requires IndexOfKey(gs0, KeyOf(dim, r.screening)) == |gs0|
    ensures Counted(AddRow(gs0, KeyOf(dim, r.screening), Store.RowIsPositive(r)), front + [r], dim)
  {
    var rows := front + [r];
    var key := KeyOf(dim, r.screening);
    var gs := AddRow(gs0, key, Store.RowIsPositive(r));
    forall j | 0 <= j < |gs|
      ensures gs[j].total == CountIn(rows, (dim, gs[j].key), HasKey)
      ensures gs[j].positive == CountIn(rows, (dim, gs[j].key), PositiveWithKey)
    {
      CountInLast(front, r, (dim, gs[j].key));
      if j == |gs0| {
        CountInMono(front, (dim, key), PositiveWithKey, HasKey);
      } else {
        assert gs[j] == gs0[j];
      }
    }
  }

  lemma {:induction false} NewComplete(front: seq<Store.Row>, r: Store.Row, dim: Dimension, gs0: seq<Group>)
    requires Complete(gs0, front, dim)
    requires IndexOfKey(gs0, KeyOf(dim, r.screening)) == |gs0|
    ensures Complete(AddRow(gs0, KeyOf(dim, r.screening), Store.RowIsPositive(r)), front + [r], dim)
  {
    var key := KeyOf(dim, r.screening);
    var gs := AddRow(gs0, key, Store.RowIsPositive(r));
    forall k | Absent(gs, k)
      ensures CountIn(front + [r], (dim, k), HasKey) == 0
    {
      assert gs[|gs0|].key == key;
      assert forall j :: 0 <= j < |gs0| ==> gs[j] == gs0[j];
      assert Absent(gs0, k);
      CountInLast(front, r, (dim, k));
    }
  }

  /** Every row's key has a group. */
  lemma EveryRowGrouped(rows: seq<Store.Row>, dim: Dimension, j: nat)
    requires j < |rows|
    ensures !Absent(GroupBy(rows, dim), KeyOf(dim, rows[j].screening))
  {
    var key := KeyOf(dim, rows[j].screening);
    if Absent(GroupBy(rows, dim), key) {
      PresentKeyCounts(rows, dim, j);
    }
  }

  /** A key some row carries is counted at least once. */
  lemma {:induction false} PresentKeyCounts(rows: seq<Store.Row>, dim: Dimension, j: nat)
    requires j < |rows|
    ensures CountIn(rows, (dim, KeyOf(dim, rows[j].screening)), HasKey) > 0
  {
    var b := (dim, KeyOf(dim, rows[j].screening));
    CountInStep(rows, b, HasKey);
    if j < |rows| - 1 {
      assert rows[..|rows| - 1][j] == rows[j];
      PresentKeyCounts(rows[..|rows| - 1], dim, j);
    }
  }

  /** A group with a positive count has a row carrying its key. */
  lemma {:induction false} CountedKeyHasRow(rows: seq<Store.Row>, b: (Dimension, string))
    requires CountIn(rows, b, HasKey) > 0
    ensures exists j :: 0 <= j < |rows| && HasKey(b, rows[j])
  {
    CountInStep(rows, b, HasKey);
    if !HasKey(b, rows[|rows| - 1]) {
      CountedKeyHasRow(rows[..|rows| - 1], b);
      var j :| 0 <= j < |rows| - 1 && HasKey(b, rows[..|rows| - 1][j]);
      assert rows[j] == rows[..|rows| - 1][j];
    }
  }

  /** In a database written through the API every group key is a value the
      column can hold: "m"/"f" for gender, "yes"/"no" for the risk factors. */
  lemma GroupKeysWellFormed(db: Store.Db, dim: Dimension, i: nat)
    requires Store.WellFormed(db)
    ensures var gs := GroupBy(Store.Joined(db), dim);
            i < |gs| && dim == ByGender ==> gs[i].key == "m" || gs[i].key == "f"
    ensures var gs := GroupBy(Store.Joined(db), dim);
            i < |gs| && dim != ByGender ==> gs[i].key == "yes" || gs[i].key == "no"
  {
    var rows := Store.Joined(db);
    if i < |GroupBy(rows, dim)| {
      var b := (dim, GroupBy(rows, dim)[i].key);
      CountedKeyHasRow(rows, b);
      var j :| 0 <= j < |rows| && HasKey(b, rows[j]);
      var e := Store.Entry(rows[j].screening, Some(rows[j].result));
      assert e in db;
      var k :| 0 <= k < |db| && db[k] == e;
    }
  }

  // ------------------------------------------------------------- gender

  datatype GenderStat = GenderStat(gender: string, total: nat, positive: nat, negative: int, positiveRate: real)

  function GenderName(g: string): string
  {
    if g == "m" then "Masculino" else "Feminino"
  }

  /** 'Masculino' exactly for the key "m"; every other key reads 'Feminino'. */
  lemma GenderNameIff(g: string)
    ensures GenderName(g) == "Masculino" <==> g == "m"
    ensures GenderName(g) == "Feminino" <==> g != "m"
  {
  }

  /** One output entry for a gender group. */
  function GenderStatOf(g: Group): (s: GenderStat)
    ensures s.gender == GenderName(g.key) && s.total == g.total && s.positive == g.positive
    ensures g.positive <= g.total ==> 0 <= s.negative == s.total - s.positive
    ensures g.total == 0 ==> s.positiveRate == 0.0
    ensures g.total > 0 ==> s.positiveRate * (g.total as real) == g.positive as real
    ensures g.positive <= g.total ==> 0.0 <= s.positiveRate <= 1.0
  {
    GenderStat(GenderName(g.key), g.total, g.positive, g.total - g.positive, Ratio(g.positive, g.total))
  }

  /** GET /api/dashboard/gender-distribution: one entry per stored gender value
      among screenings that have a result. */
  function GenderDistribution(db: Store.Db): (ss: seq<GenderStat>)
    ensures var gs := GroupBy(Store.Joined(db), ByGender);
            && |ss| == |gs|
            && (forall i :: 0 <= i < |ss| ==> ss[i] == GenderStatOf(gs[i]))
            && (forall i :: 0 <= i < |ss| ==> ss[i].gender == GenderName(gs[i].key))
            && (forall i :: 0 <= i < |ss| ==> ss[i].total == CountIn(Store.Joined(db), (ByGender, gs[i].key), HasKey))
            && (forall i :: 0 <= i < |ss| ==>
                  ss[i].positive == CountIn(Store.Joined(db), (ByGender, gs[i].key), PositiveWithKey))
    ensures forall i :: 0 <= i < |ss| ==> 0 <= ss[i].negative == ss[i].total - ss[i].positive
    ensures forall i :: 0 <= i < |ss| ==> 0.0 <= ss[i].positiveRate <= 1.0
    ensures Store.WellFormed(db) ==> forall i, j :: 0 <= i < j < |ss| ==> ss[i].gender != ss[j].gender
  {
    var gs := GroupBy(Store.Joined(db), ByGender);
    var ss := GenderStats(gs);
    GenderNamesDistinct(db);
    ss
  }

  /** The output entries of the gender groups, in group order. */
  function GenderStats(gs: seq<Group>): (ss: seq<GenderStat>)
    ensures |ss| == |gs|
    ensures forall i :: 0 <= i < |ss| ==> ss[i] == GenderStatOf(gs[i])
    ensures forall i :: 0 <= i < |ss| ==>
              && ss[i].gender == GenderName(gs[i].key) && ss[i].total == gs[i].total
              && ss[i].positive == gs[i].positive
              && ss[i].negative == ss[i].total - ss[i].positive
    ensures forall i :: 0 <= i < |ss| ==> gs[i].positive <= gs[i].total ==>
              0 <= ss[i].negative && 0.0 <= ss[i].positiveRate <= 1.0
  {
    seq(|gs|, i requires 0 <= i < |gs| => GenderStatOf(gs[i]))
  }

  lemma GenderNamesDistinct(db: Store.Db)
    ensures var gs := GroupBy(Store.Joined(db), ByGender);
            Store.WellFormed(db) ==>
              forall i, j :: 0 <= i < j < |gs| ==> GenderName(gs[i].key) != GenderName(gs[j].key)
  {
    var gs := GroupBy(Store.Joined(db), ByGender);
    if Store.WellFormed(db) {
      forall i, j | 0 <= i < j < |gs|
        ensures GenderName(gs[i].key) != GenderName(gs[j].key)
      {
        GroupKeysWellFormed(db, ByGender, i);
        GroupKeysWellFormed(db, ByGender, j);
      }
    }
  }

  // -------------------------------------------------------- risk factors

  datatype RiskStat = RiskStat(factor: string, value: string, total: nat, positive: nat, positiveRate: real)

  datatype RiskFactors = RiskFactors(jundice: seq<RiskStat>, familyHistory: seq<RiskStat>)

  function YesNoName(v: string): string
  {
    if v == "yes" then "Sim" else "Não"
  }

  /** 'Sim' exactly for the key "yes"; every other key reads 'Não'. */
  lemma YesNoNameIff(v: string)
    ensures YesNoName(v) == "Sim" <==> v == "yes"
    ensures YesNoName(v) == "Não" <==> v != "yes"
  {
  }

  /** `format_results`: relabel the groups of one risk factor. */
  function FormatResults(gs: seq<Group>, factor: string): (ss: seq<RiskStat>)
    ensures |ss| == |gs|
    ensures forall i :: 0 <= i < |ss| ==> ss[i].factor == factor && ss[i].value == YesNoName(gs[i].key)
    ensures forall i :: 0 <= i < |ss| ==> ss[i].total == gs[i].total && ss[i].positive == gs[i].positive
    ensures forall i :: 0 <= i < |ss| ==> (ss[i].total == 0 ==> ss[i].positiveRate == 0.0)
    ensures forall i :: 0 <= i < |ss| ==>
              (ss[i].total > 0 ==> ss[i].positiveRate * (ss[i].total as real) == ss[i].positive as real)
    ensures forall i :: 0 <= i < |ss| ==>
              (gs[i].positive <= gs[i].total ==> 0.0 <= ss[i].positiveRate <= 1.0)
  {
    seq(|gs|, i requires 0 <= i < |gs| =>
      RiskStat(factor, YesNoName(gs[i].key), gs[i].total, gs[i].positive, Ratio(gs[i].positive, gs[i].total)))
  }

  /** The entries of one risk factor: one per group of the joined rows by
      that column, with the group's counts and a rate within [0, 1]. In a
      well-formed database the groups are "yes" and "no" at most, so the
      labels 'Sim' and 'Não' never repeat. */
  function FactorStats(db: Store.Db, dim: Dimension, factor: string): (ss: seq<RiskStat>)
    requires dim != ByGender
    ensures var gs := GroupBy(Store.Joined(db), dim);
            && |ss| == |gs|
            && (forall i :: 0 <= i < |ss| ==> ss[i].factor == factor && ss[i].value == YesNoName(gs[i].key))
            && (forall i :: 0 <= i < |ss| ==>
                  ss[i].total == CountIn(Store.Joined(db), (dim, gs[i].key), HasKey)
                  && ss[i].positive == CountIn(Store.Joined(db), (dim, gs[i].key), PositiveWithKey))
    ensures ss == FormatResults(GroupBy(Store.Joined(db), dim), factor)
    ensures forall i :: 0 <= i < |ss| ==> ss[i].total > 0
    ensures forall i :: 0 <= i < |ss| ==> 0.0 <= ss[i].positiveRate <= 1.0
    ensures Store.WellFormed(db) ==> forall i, j :: 0 <= i < j < |ss| ==> ss[i].value != ss[j].value
  {
    var gs := GroupBy(Store.Joined(db), dim);
    FactorCounts(Store.Joined(db), dim, factor);
    YesNoNamesDistinct(db, dim);
    FormatKeepsDistinct(gs, factor);
    FormatResults(gs, factor)
  }

  /** The relabelled groups of the joined rows count the rows with each key. */
  lemma FactorCounts(rows: seq<Store.Row>, dim: Dimension, factor: string)
    ensures var gs := GroupBy(rows, dim);
            var ss := FormatResults(gs, factor);
            && (forall i :: 0 <= i < |ss| ==>
                  ss[i].total == CountIn(rows, (dim, gs[i].key), HasKey)
                  && ss[i].positive == CountIn(rows, (dim, gs[i].key), PositiveWithKey))
            && (forall i :: 0 <= i < |ss| ==> ss[i].total > 0)
            && (forall i :: 0 <= i < |ss| ==> 0.0 <= ss[i].positiveRate <= 1.0)
  {
  }

  /** Relabelling keeps distinct 'Sim'/'Não' labels distinct. */
  lemma FormatKeepsDistinct(gs: seq<Group>, factor: string)
    ensures (forall i, j :: 0 <= i < j < |gs| ==> YesNoName(gs[i].key) != YesNoName(gs[j].key)) ==>
              var ss := FormatResults(gs, factor);
              forall i, j :: 0 <= i < j < |ss| ==> ss[i].value != ss[j].value
  {
  }

  lemma YesNoNamesDistinct(db: Store.Db, dim: Dimension)
    requires dim != ByGender
    ensures var gs := GroupBy(Store.Joined(db), dim);
            Store.WellFormed(db) ==>
              forall i, j :: 0 <= i < j < |gs| ==> YesNoName(gs[i].key) != YesNoName(gs[j].key)
  {
    var gs := GroupBy(Store.Joined(db), dim);
    if Store.WellFormed(db) {
      forall i, j | 0 <= i < j < |gs|
        ensures YesNoName(gs[i].key) != YesNoName(gs[j].key)
      {
        GroupKeysWellFormed(db, dim, i);
        GroupKeysWellFormed(db, dim, j);
      }
    }
  }

  /** GET /api/dashboard/risk-factors: jaundice and family history, grouped over
      screenings that have a result. */
  function GetRiskFactors(db: Store.Db): (rf: RiskFactors)
    ensures rf.jundice == FactorStats(db, ByJundice, "Icterícia")
    ensures rf.familyHistory == FactorStats(db, ByAutism, "Histórico Familiar")
    ensures |rf.jundice| == |GroupBy(Store.Joined(db), ByJundice)|
    ensures |rf.familyHistory| == |GroupBy(Store.Joined(db), ByAutism)|
    ensures forall i :: 0 <= i < |rf.jundice| ==> rf.jundice[i].factor == "Icterícia"
    ensures forall i :: 0 <= i < |rf.familyHistory| ==> rf.familyHistory[i].factor == "Histórico Familiar"
    ensures forall i :: 0 <= i < |rf.jundice| ==> 0.0 <= rf.jundice[i].positiveRate <= 1.0
    ensures forall i :: 0 <= i < |rf.familyHistory| ==> 0.0 <= rf.familyHistory[i].positiveRate <= 1.0
    ensures Store.WellFormed(db) ==>
              forall i, j :: 0 <= i < j < |rf.jundice| ==> rf.jundice[i].value != rf.jundice[j].value
    ensures Store.WellFormed(db) ==>
              forall i, j :: 0 <= i < j < |rf.familyHistory| ==> rf.familyHistory[i].value != rf.familyHistory[j].value
  {
    RiskFactors(FactorStats(db, ByJundice, "Icterícia"), FactorStats(db, ByAutism, "Histórico Familiar"))
  }

  // ------------------------------------------------------ score analysis

  predicate HasLabel(prediction: string, r: Store.Row)
  {
    r.result.prediction == prediction
  }

  /** Every joined row holds 0/1 answers. */
  predicate BinaryRows(rows: seq<Store.Row>)
  {
    forall i :: 0 <= i < |rows| ==> AllBinary(rows[i].screening.scores)
  }

  /** Every joined row carries one of the classifier's two labels. */
  predicate TwoLabels(rows: seq<Store.Row>)
  {
    forall i :: 0 <= i < |rows| ==> HasLabel(Classifier.PositiveLabel, rows[i]) || HasLabel(Classifier.NegativeLabel, rows[i])
  }

  /** The rows with label `prediction` that answer question `q + 1` with `value`. */
  datatype AnswerKey = AnswerKey(q: nat, prediction: string, value: int)

  predicate AnswerWith(key: AnswerKey, r: Store.Row)
  {
    key.q < 10 && HasLabel(key.prediction, r) && r.screening.scores[key.q] == key.value
  }

  /** Answers to question q + 1 of the rows with the given prediction, in row order. */
  function ScoresWith(rows: seq<Store.Row>, q: nat, prediction: string): (xs: seq<int>)
    requires q < 10
    ensures |xs| == CountIn(rows, prediction, HasLabel)
    ensures BinaryRows(rows) ==> AllBinary(xs)
  {
    if |rows| == 0 then []
    else
      var r := rows[|rows| - 1];
      var front := ScoresWith(rows[..|rows| - 1], q, prediction);
      CountInStep(rows, prediction, HasLabel);
      if HasLabel(prediction, r) then front + [r.screening.scores[q]] else front
  }

  /** The collected answers are those of the rows with the label: each value
      occurs among them as often as there are such rows giving that answer. */
  lemma {:induction false} ScoresWithValues(rows: seq<Store.Row>, q: nat, prediction: string, v: int)
    requires q < 10
    ensures CountIn(ScoresWith(rows, q, prediction), v, IsValue) == CountIn(rows, AnswerKey(q, prediction, v), AnswerWith)
  {
    if |rows| > 0 {
      var r := rows[|rows| - 1];
      var xs := ScoresWith(rows, q, prediction);
      var front := ScoresWith(rows[..|rows| - 1], q, prediction);
      CountInStep(rows, AnswerKey(q, prediction, v), AnswerWith);
      ScoresWithValues(rows[..|rows| - 1], q, prediction, v);
      if HasLabel(prediction, r) {
        assert xs[..|xs| - 1] == front;
        CountInStep(xs, v, IsValue);
      }
    }
  }

  /** Over 0/1 answers, the answers to question q + 1 collected for a label
      add up to the number of rows with that label answering 1; with `Mean`'s
      contract this fixes every average of the score analysis. */
  lemma {:induction false} LabelOnes(rows: seq<Store.Row>, q: nat, prediction: string)
    requires q < 10 && BinaryRows(rows)
    ensures Sum(ScoresWith(rows, q, prediction)) == CountIn(rows, AnswerKey(q, prediction, 1), AnswerWith)
  {
    SumOfBinaryCountsOnes(ScoresWith(rows, q, prediction));
    ScoresWithValues(rows, q, prediction, 1);
  }

  datatype QuestionStat = QuestionStat(question: string, positiveAvg: real, negativeAvg: real, totalAvg: real)

  /** `f"A{i}"` */
  function QuestionName(i: nat): string
  {
    "A" + JsInt.Show(i)
  }

  /** The first and last names are "A1" and "A10". */
  lemma QuestionNameEnds()
    ensures QuestionName(1) == "A1" && QuestionName(10) == "A10"
  {
  }

  /** No two questions share a name. */
  lemma QuestionNamesDistinct(i: nat, j: nat)
    requires QuestionName(i) == QuestionName(j)
    ensures i == j
  {
    var si, sj := JsInt.Show(i), JsInt.Show(j);
    assert si == QuestionName(i)[1..];
    assert sj == QuestionName(j)[1..];
    JsInt.ParseShow(i);
    JsInt.ParseShow(j);
  }

  /** The answers of two groups pooled and divided by `n`, 0 when `n` is 0. */
  function PooledAverage(xs: seq<int>, ys: seq<int>, n: nat): (r: real)
    ensures n == 0 ==> r == 0.0
    ensures n > 0 ==> r * (n as real) == Sum(xs + ys) as real
    ensures |xs| + |ys| == n ==> r == Mean(xs + ys)
    ensures AllBinary(xs) && AllBinary(ys) && |xs| + |ys| <= n ==> 0.0 <= r <= 1.0
  {
    if AllBinary(xs) && AllBinary(ys) then
      assert AllBinary(xs + ys);
      SumOfBinary(xs + ys);
      Ratio(Sum(xs + ys), n)
    else
      Ratio(Sum(xs + ys), n)
  }

  /** `sum(positive_scores + negative_scores) / len(screenings) if screenings else 0` */
  function TotalAverage(rows: seq<Store.Row>, q: nat): (r: real)
    requires q < 10
    ensures |rows| == 0 ==> r == 0.0
    ensures TwoLabels(rows) ==>
              r == Mean(ScoresWith(rows, q, Classifier.PositiveLabel) + ScoresWith(rows, q, Classifier.NegativeLabel))
    ensures BinaryRows(rows) ==> 0.0 <= r <= 1.0
  {
    CountInDisjoint(rows, Classifier.PositiveLabel, Classifier.NegativeLabel, HasLabel);
    var xs, ys := ScoresWith(rows, q, Classifier.PositiveLabel), ScoresWith(rows, q, Classifier.NegativeLabel);
    assert TwoLabels(rows) ==> |xs| + |ys| == |rows| by {
      if TwoLabels(rows) {
        CountInCover(rows, Classifier.PositiveLabel, Classifier.NegativeLabel, HasLabel);
      }
    }
    PooledAverage(xs, ys, |rows|)
  }

  /** One entry of the score analysis: the answers to question q + 1 averaged
      over positive results, over negative results, and over all joined rows. */
  function QuestionStatOf(rows: seq<Store.Row>, q: nat): (s: QuestionStat)
    requires q < 10
    ensures s.question == QuestionName(q + 1)
    ensures s.positiveAvg == Mean(ScoresWith(rows, q, Classifier.PositiveLabel))
    ensures s.negativeAvg == Mean(ScoresWith(rows, q, Classifier.NegativeLabel))
    ensures |rows| == 0 ==> s.totalAvg == 0.0
    ensures TwoLabels(rows) ==>
              s.totalAvg == Mean(ScoresWith(rows, q, Classifier.PositiveLabel) + ScoresWith(rows, q, Classifier.NegativeLabel))
    ensures BinaryRows(rows) ==>
              && 0.0 <= s.positiveAvg <= 1.0
              && 0.0 <= s.negativeAvg <= 1.0
              && 0.0 <= s.totalAvg <= 1.0
  {
    QuestionStat(QuestionName(q + 1),
                 Mean(ScoresWith(rows, q, Classifier.PositiveLabel)),
                 Mean(ScoresWith(rows, q, Classifier.NegativeLabel)),
                 TotalAverage(rows, q))
  }

  /** GET /api/dashboard/score-analysis over screenings that have a result:
      ten entries "A1" .. "A10" in order, each with the mean answer among
      positive results, among negative results, and over all joined rows. */
  function ScoreAnalysis(db: Store.Db): (qs: seq<QuestionStat>)
    ensures |qs| == 10
    ensures forall i :: 0 <= i < 10 ==> qs[i] == QuestionStatOf(Store.Joined(db), i)
    ensures forall i :: 0 <= i < 10 ==> qs[i].question == QuestionName(i + 1)
    ensures Store.WellFormed(db) ==> forall i :: 0 <= i < 10 ==>
              && 0.0 <= qs[i].positiveAvg <= 1.0
              && 0.0 <= qs[i].negativeAvg <= 1.0
              && 0.0 <= qs[i].totalAvg <= 1.0
  {
    var rows := Store.Joined(db);
    assert Store.WellFormed(db) ==> BinaryRows(rows) by {
      if Store.WellFormed(db) {
        forall i | 0 <= i < |rows|
          ensures AllBinary(rows[i].screening.scores)
        {
          var e := Store.Entry(rows[i].screening, Some(rows[i].result));
          assert e in db;
          var k :| 0 <= k < |db| && db[k] == e;
        }
      }
    }
    seq(10, i requires 0 <= i < 10 => QuestionStatOf(rows, i))
  }
}

=== FILE: jsint.dfy ===
/** JavaScript's `parseInt(string)` with no radix argument, as the browser applies
    it to the age field, and the decimal rendering of natural numbers that both
    JavaScript and Python use (`f"A{i}"`). `NaN` is `None`. */
module JsInt {
  import opened Common

  /** The white-space and line-terminator code points that `parseInt` skips
      before the number (StrWhiteSpaceChar of ECMAScript). */
  predicate IsJsSpace(c: char)
  {
    || c == '\t' || c == '\U{000B}' || c == '\U{000C}' || c == ' ' || c == '\U{00A0}'
    || c == '\U{FEFF}' || c == '\U{1680}' || ('\U{2000}' <= c <= '\U{200A}')
    || c == '\U{202F}' || c == '\U{205F}' || c == '\U{3000}'
    || c == '\n' || c == '\r' || c == '\U{2028}' || c == '\U{2029}'
  }

  function TrimStart(s: string): (r: string)
    ensures |r| <= |s| && r == s[|s| - |r|..]
    ensures forall i :: 0 <= i < |s| - |r| ==> IsJsSpace(s[i])
    ensures |r| == 0 || !IsJsSpace(r[0])
  {
    if |s| > 0 && IsJsSpace(s[0]) then TrimStart(s[1..]) else s
  }

  /** The value of a digit in radixes up to 36 ('0'-'9', then 'a'/'A' = 10 ... 'z'/'Z' = 35);
      36 for a character that is a digit in no radix. */
  function DigitValue(c: char): (d: nat)
    ensures d <= 36
  {
    if '0' <= c <= '9' then c as int - '0' as int
    else if 'a' <= c <= 'z' then c as int - 'a' as int + 10
    else if 'A' <= c <= 'Z' then c as int - 'A' as int + 10
    else 36
  }

  /** Length of the longest prefix of `s` made of radix-`radix` digits. */
  function DigitRun(s: string, radix: nat): (n: nat)
    ensures n <= |s|
    ensures forall i :: 0 <= i < n ==> DigitValue(s[i]) < radix
    ensures n < |s| ==> DigitValue(s[n]) >= radix
  {
    if |s| > 0 && DigitValue(s[0]) < radix then 1 + DigitRun(s[1..], radix) else 0
  }

  /** The number a string of digits denotes, most significant digit first. */
  function Value(digits: string, radix: nat): nat
  {
    if |digits| == 0 then 0
    else Value(digits[..|digits| - 1], radix) * radix + DigitValue(digits[|digits| - 1])
  }

  predicate HasHexPrefix(s: string)
  {
    |s| >= 2 && s[0] == '0' && (s[1] == 'x' || s[1] == 'X')
  }

  /** The unsigned part of `parseInt`: radix 16 after a `0x`/`0X` prefix, else
      radix 10, then the longest run of digits; no digit at all gives `NaN`. */
  function Unsigned(u: string): Common.Option<nat>
  {
    var radix := if HasHexPrefix(u) then 16 else 10;
    var body := if HasHexPrefix(u) then u[2..] else u;
    var n := DigitRun(body, radix);
    if n == 0 then None else Some(Value(body[..n], radix))
  }

  /** `parseInt(s)`: skip leading white space, read an optional sign, then the
      unsigned part; a minus sign negates it. */
  function ParseInt(s: string): (r: Common.Option<int>)
    ensures r.Some? ==> |TrimStart(s)| > 0
    ensures r.Some? && r.value < 0 ==> TrimStart(s)[0] == '-'
  {
    var t := TrimStart(s);
    var negative := |t| > 0 && t[0] == '-';
    var u := if |t| > 0 && (t[0] == '+' || t[0] == '-') then t[1..] else t;
    match Unsigned(u)
    case None => None
    case Some(m) => Some(if negative then -(m as int) else m as int)
  }

  function DigitChar(d: nat): (c: char)
    requires d < 10
    ensures '0' <= c <= '9' && DigitValue(c) == d
  {
    ('0' as int + d) as char
  }

  /** The decimal rendering of `n`, without sign or leading zeros. */
  function Show(n: nat): (s: string)
    ensures |s| > 0
    ensures forall i :: 0 <= i < |s| ==> '0' <= s[i] <= '9'
    ensures |s| > 1 ==> s[0] != '0'
  {
    if n < 10 then [DigitChar(n)] else Show(n / 10) + [DigitChar(n % 10)]
  }

  /** Reading the decimal rendering back gives the number. */
  lemma {:induction false} ValueOfShow(n: nat)
    ensures Value(Show(n), 10) == n
  {
    if n >= 10 {
      ValueOfShow(n / 10);
    }
  }

  /** A run of decimal digits is read to its end. */
  lemma DigitRunOfDigits(s: string)
    requires forall i :: 0 <= i < |s| ==> '0' <= s[i] <= '9'
    ensures DigitRun(s, 10) == |s|
  {
  }

  /** `parseInt(Show(n) + rest)` is `n` whenever `rest` does not continue the
      number: "5" gives 5, "5.5" and "1e3" give 5 and 1. A rest starting with
      `x` after "0" switches to hexadecimal instead. */
  lemma ParseShowThenRest(n: nat, rest: string)
    requires |rest| == 0 || DigitValue(rest[0]) >= 10
    requires n == 0 && |rest| > 0 ==> rest[0] != 'x' && rest[0] != 'X'
    ensures ParseInt(Show(n) + rest) == Some(n)
  {
    var s := Show(n) + rest;
    assert TrimStart(s) == s;  // unfolding hint
    UnsignedShowThenRest(n, rest);
  }

  lemma UnsignedShowThenRest(n: nat, rest: string)
    requires |rest| == 0 || DigitValue(rest[0]) >= 10
    requires n == 0 && |rest| > 0 ==> rest[0] != 'x' && rest[0] != 'X'
    ensures Unsigned(Show(n) + rest) == Some(n)
  {
    var s := Show(n) + rest;
    assert !HasHexPrefix(s);
    var k := |Show(n)|;
    DigitRunOfDigits(Show(n));
    assert DigitRun(s, 10) == k by {
      DigitRunPrefix(Show(n), rest);
    }
    ValueOfShow(n);
  }

  lemma {:induction false} DigitRunPrefix(d: string, rest: string)
    requires forall i :: 0 <= i < |d| ==> '0' <= d[i] <= '9'
    requires |rest| == 0 || DigitValue(rest[0]) >= 10
    ensures DigitRun(d + rest, 10) == |d|
  {
    if |d| > 0 {
      assert (d + rest)[1..] == d[1..] + rest;
      DigitRunPrefix(d[1..], rest);
    } else {
      assert d + rest == rest;
    }
  }

  /** The decimal rendering parses back to the number. */
  lemma ParseShow(n: nat)
    ensures ParseInt(Show(n)) == Some(n)
  {
    assert Show(n) + [] == Show(n);  // unfolding hint
    ParseShowThenRest(n, []);
  }

  /** A minus sign in front of the rendering negates the number. */
  lemma ParseNegativeShow(n: nat)
    ensures ParseInt("-" + Show(n)) == Some(-(n as int))
  {
    UnsignedShow(n);
    ParseMinus(Show(n), n);
  }

  lemma UnsignedShow(n: nat)
    ensures Unsigned(Show(n)) == Some(n)
  {
    assert Show(n) + [] == Show(n);  // unfolding hint
    UnsignedShowThenRest(n, []);
  }

  /** A leading minus sign negates what the rest reads as. */
  lemma ParseMinus(u: string, m: nat)
    requires Unsigned(u) == Some(m)
    ensures ParseInt("-" + u) == Some(-(m as int))
  {
    var s := "-" + u;
    assert TrimStart(s) == s;  // unfolding hint
    assert s[1..] == u;  // unfolding hint
  }

  /** A string with no digit in it, such as the empty age field, is `NaN`. */
  lemma ParseNoDigits(s: string)
    requires forall i :: 0 <= i < |s| ==> DigitValue(s[i]) >= 10
    ensures ParseInt(s) == None
  {
    var t := TrimStart(s);
    var u := if |t| > 0 && (t[0] == '+' || t[0] == '-') then t[1..] else t;
    assert forall i :: 0 <= i < |u| ==> u[i] in s;
    assert !HasHexPrefix(u);
  }
}

=== FILE: json.dfy ===
/** The JSON values that cross the HTTP boundary between the browser and the API. */
module Json {

  datatype Value = Null | Int(i: int) | Num(r: real) | Str(s: string)

  /** A JSON object: field name to value. */
  type Object = map<string, Value>
}

=== FILE: store.dfy ===
/** The two database tables as the backend sees them. A screening row is written
    first and its result row after the classifier ran, so every screening carries
    at most one result: the database is a sequence of entries, each a screening
    with its optional result. */
module Store {
  import opened Common
  import Classifier

  /** The ten answers a1_score .. a10_score; index q holds question q + 1. */
  type Scores = s: seq<int> | |s| == 10 witness [0, 0, 0, 0, 0, 0, 0, 0, 0, 0]

  datatype Screening = Screening(
    id: int,
    scores: Scores,
    age: int,
    gender: string,
    jundice: string,
    autism: string,
    usedAppBefore: string)

  /** A row of the results table; `confidence` holds the class-1 probability. */
  datatype ResultRow = ResultRow(
    id: int,
    screeningId: int,
    prediction: string,
    confidence: real,
    modelVersion: string,
    createdAt: string)

  datatype Entry = Entry(screening: Screening, result: Option<ResultRow>)

  type Db = seq<Entry>

  /** A screening joined with its result. */
  datatype Row = Row(screening: Screening, result: ResultRow)

  predicate HasResult(e: Entry)
  {
    e.result.Some?
  }

  predicate IsPositive(e: Entry)
  {
    e.result.Some? && e.result.value.prediction == Classifier.PositiveLabel
  }

  predicate IsNegative(e: Entry)
  {
    e.result.Some? && e.result.value.prediction == Classifier.NegativeLabel
  }

  predicate RowIsPositive(r: Row)
  {
    r.result.prediction == Classifier.PositiveLabel
  }

  /** The inner join of screenings with results, in table order. */
  function Joined(db: Db): (rows: seq<Row>)
    ensures |rows| == Count(db, HasResult)
    ensures Count(rows, RowIsPositive) == Count(db, IsPositive)
    ensures forall i :: 0 <= i < |rows| ==> Entry(rows[i].screening, Some(rows[i].result)) in db
  {
    if |db| == 0 then []
    else
      var e := db[|db| - 1];
      var front := Joined(db[..|db| - 1]);
      if e.result.Some? then
        CountAppend(front, Row(e.screening, e.result.value), RowIsPositive);
        front + [Row(e.screening, e.result.value)]
      else front
  }

  /** Entry `e` has a result, and its joined row satisfies `p`. */
  predicate JoinsInto(p: Row -> bool, e: Entry)
  {
    e.result.Some? && p(Row(e.screening, e.result.value))
  }

  /** The join holds exactly one row per screening with a result: for any
      property of rows, the joined rows having it are as many as the entries
      whose screening and result together have it. */
  lemma {:induction false} JoinedCounts(db: Db, p: Row -> bool)
    ensures Count(Joined(db), p) == CountIn(db, p, JoinsInto)
  {
    if |db| > 0 {
      var e := db[|db| - 1];
      CountInStep(db, p, JoinsInto);
      JoinedCounts(db[..|db| - 1], p);
      if e.result.Some? {
        CountAppend(Joined(db[..|db| - 1]), Row(e.screening, e.result.value), p);
      }
    }
  }

  /** The results table on its own: the result part of each joined row. */
  function Results(db: Db): (rs: seq<ResultRow>)
    ensures |rs| == Count(db, HasResult)
    ensures forall i :: 0 <= i < |rs| ==> rs[i] == Joined(db)[i].result
  {
    var rows := Joined(db);
    seq(|rows|, i requires 0 <= i < |rows| => rows[i].result)
  }

  /** What rows written through the prediction endpoint look like: 0/1 answers,
      a lower-case gender code, yes/no risk factors and a label from the classifier. */
  predicate WellFormedEntry(e: Entry)
  {
    && AllBinary(e.screening.scores)
    && 1 <= e.screening.age <= 100
    && (e.screening.gender == "m" || e.screening.gender == "f")
    && (e.screening.jundice == "yes" || e.screening.jundice == "no")
    && (e.screening.autism == "yes" || e.screening.autism == "no")
    && (e.screening.usedAppBefore == "yes" || e.screening.usedAppBefore == "no")
    && (e.result.Some? ==>
          e.result.value.prediction in {Classifier.PositiveLabel, Classifier.NegativeLabel})
  }

  predicate WellFormed(db: Db)
  {
    forall i :: 0 <= i < |db| ==> WellFormedEntry(db[i])
  }

  /** Positive and negative results are disjoint kinds of result, and there is
      at most one result per screening. */
  lemma ResultCounts(db: Db)
    ensures Count(db, IsPositive) + Count(db, IsNegative) <= Count(db, HasResult)
    ensures Count(db, HasResult) <= |db|
  {
    CountDisjoint(db, IsPositive, IsNegative, HasResult);
  }

  /** Positive results over all screenings, 0 for an empty database: the rate
      both `/stats` and the dashboard KPIs report. Screenings without a result
      count in the denominator. */
  function PositiveRate(db: Db): (r: real)
    ensures |db| == 0 ==> r == 0.0
    ensures |db| > 0 ==> r * (|db| as real) == Count(db, IsPositive) as real
    ensures 0.0 <= r <= 1.0
  {
    ResultCounts(db);
    Ratio(Count(db, IsPositive), |db|)
  }
}

=== FILE: wizard.dfy ===
/** The screening wizard of the browser client: three steps (questionnaire,
    demographics, result), the completeness gates on its buttons, the request
    body it submits, and the state the response leaves behind. Every transition
    is a pure function of the current state; the outcome of the HTTP request is
    an input. */
module Wizard {
  import opened Common
  import Json
  import JsInt
  import Api

  /** Steps 1, 2 and 3 of the form. */
  datatype Step = Answering | Demographics | ShowingResult

  /** The form fields as the inputs hold them, all strings, plus the answers
      keyed by question id. */
  datatype FormData = FormData(
    age: string,
    gender: string,
    jundice: string,
    autism: string,
    usedAppBefore: string,
    answers: map<int, int>)

  datatype Field = Age | Gender | Jundice | Autism | UsedAppBefore

  datatype State = State(
    step: Step,
    form: FormData,
    result: Option<Json.Object>,
    loading: bool,
    error: Option<string>)

  /** How the prediction request ended: an ok response and its JSON body, or
      anything else (a non-ok status, a network error, a body that is not JSON). */
  datatype Outcome = Responded(data: Json.Object) | Failed

  const ErrorMessage: string := "Erro ao processar triagem. Verifique se o backend está rodando."

  const EmptyForm: FormData := FormData("", "", "", "", "no", map[])

  const Initial: State := State(Answering, EmptyForm, None, false, None)

  /** The ids of the ten questions on screen. */
  predicate IsQuestion(q: int)
  {
    1 <= q <= 10
  }

  // ------------------------------------------------------ field updates

  /** Records answer `v` for question `q`, replacing any earlier answer. */
  function SetAnswer(f: FormData, q: int, v: int): (r: FormData)
    ensures q in r.answers && r.answers[q] == v
    ensures r.answers.Keys == f.answers.Keys + {q}
    ensures forall k :: k in f.answers && k != q ==> r.answers[k] == f.answers[k]
    ensures r.age == f.age && r.gender == f.gender && r.jundice == f.jundice
    ensures r.autism == f.autism && r.usedAppBefore == f.usedAppBefore
  {
    f.(answers := f.answers[q := v])
  }

  function Get(f: FormData, field: Field): string
  {
    match field
    case Age => f.age
    case Gender => f.gender
    case Jundice => f.jundice
    case Autism => f.autism
    case UsedAppBefore => f.usedAppBefore
  }

  /** Stores `v` in one demographic field. */
  function SetDemographic(f: FormData, field: Field, v: string): (r: FormData)
    ensures Get(r, field) == v
    ensures forall g :: g != field ==> Get(r, g) == Get(f, g)
    ensures r.answers == f.answers
  {
    match field
    case Age => f.(age := v)
    case Gender => f.(gender := v)
    case Jundice => f.(jundice := v)
    case Autism => f.(autism := v)
    case UsedAppBefore => f.(usedAppBefore := v)
  }

  // --------------------------------------------------------------- gates

  /** The completeness gate: ten recorded answers on step 1, four non-empty
      demographic fields on step 2, never on step 3. */
  function CanProceed(s: State): (ok: bool)
    ensures s.step == Answering ==> (ok <==> |s.form.answers| == 10)
    ensures s.step == Demographics ==>
              (ok <==> s.form.age != "" && s.form.gender != "" && s.form.jundice != "" && s.form.autism != "")
    ensures s.step == ShowingResult ==> !ok
  {
    match s.step
    case Answering => |s.form.answers| == 10
    case Demographics => s.form.age != "" && s.form.gender != "" && s.form.jundice != "" && s.form.autism != ""
    case ShowingResult => false
  }

  /** Answers only ever come from the radio buttons: ids 1..10, values 0 or 1. */
  predicate WellFormedAnswers(a: map<int, int>)
  {
    forall q :: q in a ==> IsQuestion(q) && (a[q] == 0 || a[q] == 1)
  }

  predicate AllAnswered(a: map<int, int>)
  {
    forall q :: 1 <= q <= 10 ==> q in a
  }

  const Questions: set<int> := {1, 2, 3, 4, 5, 6, 7, 8, 9, 10}

  lemma QuestionsSize()
    ensures |Questions| == 10
    ensures forall q :: q in Questions <==> IsQuestion(q)
  {
    var low: set<int> := {1, 2, 3, 4, 5};
    var high: set<int> := {6, 7, 8, 9, 10};
    assert Questions == low + high;
    assert low !! high;
  }

  lemma KeysWithinQuestions(a: map<int, int>)
    requires WellFormedAnswers(a)
    ensures a.Keys <= Questions
    ensures AllAnswered(a) ==> a.Keys == Questions
  {
    QuestionsSize();
    forall q | q in a.Keys
      ensures q in Questions
    {
    }
  }

  /** With answers drawn from the ten questions, ten keys means every question is answered. */
  lemma AnswerCount(a: map<int, int>)
    requires WellFormedAnswers(a)
    ensures |a| == 10 <==> AllAnswered(a)
  {
    QuestionsSize();
    KeysWithinQuestions(a);
    if !AllAnswered(a) {
      var q :| 1 <= q <= 10 && q !in a;
      assert q in Questions;
      ProperSubsetSmaller(a.Keys, Questions);
    }
  }

  // ------------------------------------------------------------- payload

  function ScoreOf(a: map<int, int>, q: int): Option<int>
  {
    if q in a then Some(a[q]) else None
  }

  /** The request body: answer q becomes `A{q}_Score` (absent when unanswered),
      the age goes through `parseInt`, the other fields are copied. */
  function BuildPayload(f: FormData): (p: Api.Payload)
    ensures |p.scores| == 10
    ensures forall i :: 0 <= i < 10 ==> p.scores[i] == ScoreOf(f.answers, i + 1)
    ensures p.age == JsInt.ParseInt(f.age)
    ensures p.gender == f.gender && p.jundice == f.jundice
    ensures p.autism == f.autism && p.usedAppBefore == f.usedAppBefore
  {
    Api.Payload(
      seq(10, i requires 0 <= i < 10 => ScoreOf(f.answers, i + 1)),
      JsInt.ParseInt(f.age), f.gender, f.jundice, f.autism, f.usedAppBefore)
  }

  // --------------------------------------------------------- transitions

  /** "Voltar": back to the questionnaire with every entered value kept. */
  function Back(s: State): (r: State)
    ensures r.step == Answering
    ensures r.form == s.form && r.result == s.result && r.loading == s.loading && r.error == s.error
  {
    s.(step := Answering)
  }

  /** The start of `submitScreening`: busy, and any earlier error cleared. */
  function BeginSubmit(s: State): (r: State)
    ensures r.loading && r.error.None?
    ensures r.step == s.step && r.form == s.form && r.result == s.result
  {
    s.(loading := true, error := None)
  }

  /** The end of `submitScreening`. On an ok response the body becomes the
      result and the wizard shows step 3; on any failure the fixed message is
      shown and nothing else changes. Either way the busy flag drops. */
  function Finish(s: State, outcome: Outcome): (r: State)
    ensures !r.loading
    ensures r.form == s.form
    ensures outcome.Responded? ==>
              r.step == ShowingResult && r.result == Some(outcome.data) && r.error == s.error
    ensures outcome.Failed? ==>
              r.step == s.step && r.result == s.result && r.error == Some(ErrorMessage)
  {
    match outcome
    case Responded(data) => s.(result := Some(data), step := ShowingResult, loading := false)
    case Failed => s.(error := Some(ErrorMessage), loading := false)
  }

  /** "Nova Triagem": step 1 with an empty form, no result and no error. The busy flag is kept. */
  function Reset(s: State): (r: State)
    ensures r.step == Answering && r.form == EmptyForm && r.result.None? && r.error.None?
    ensures r.loading == s.loading
    ensures !s.loading ==> r == Initial
  {
    s.(step := Answering, form := EmptyForm, result := None, error := None)
  }

  // -------------------------------------------------------------- events

  /** What the user or the network can do. */
  datatype Event =
    | ChooseAnswer(q: int, v: int)
    | Edit(field: Field, value: string)
    | ClickNext
    | ClickBack
    | ClickSubmit
    | Settle(outcome: Outcome)
    | ClickRestart

  /** The values each rendered control can produce: the age box any text, the
      radio buttons their fixed values; `used_app_before` has no control. */
  predicate EditAllowed(field: Field, value: string)
  {
    match field
    case Age => true
    case Gender => value == "m" || value == "f"
    case Jundice => value == "yes" || value == "no"
    case Autism => value == "yes" || value == "no"
    case UsedAppBefore => false
  }

  /** Whether the screen in state `s` can produce `e`: the control is rendered
      on the current step and not disabled, or a request is in flight. */
  predicate Available(s: State, e: Event)
  {
    match e
    case ChooseAnswer(q, v) => s.step == Answering && IsQuestion(q) && (v == 0 || v == 1)
    case Edit(field, value) => s.step == Demographics && EditAllowed(field, value)
    case ClickNext => s.step == Answering && CanProceed(s)
    case ClickBack => s.step == Demographics
    case ClickSubmit => s.step == Demographics && CanProceed(s) && !s.loading
    case Settle(_) => s.loading
    case ClickRestart => s.step == ShowingResult && s.result.Some?
  }

  /** A transition, with the request body it sends if it sends one. */
  datatype Transition = Transition(next: State, request: Option<Api.Payload>)

  function Dispatch(s: State, e: Event): (t: Transition)
    ensures !Available(s, e) ==> t == Transition(s, None)
    ensures t.request.Some? <==> e.ClickSubmit? && Available(s, e)
    ensures t.request.Some? ==> t.request.value == BuildPayload(s.form) && t.next.loading
    ensures e.ClickSubmit? && s.loading ==> t.next == s
    ensures Available(s, e) ==> match e
      case ChooseAnswer(q, v) => t.next == s.(form := SetAnswer(s.form, q, v))
      case Edit(field, value) => t.next == s.(form := SetDemographic(s.form, field, value))
      case ClickNext =>
        && t.next.step == Demographics && t.next.form == s.form
        && t.next.result == s.result && t.next.loading == s.loading && t.next.error == s.error
      case ClickBack => t.next == Back(s)
      case ClickSubmit => t.next == BeginSubmit(s)
      case Settle(outcome) => t.next == Finish(s, outcome)
      case ClickRestart => t.next == Reset(s)
  {
    if !Available(s, e) then Transition(s, None)
    else
      match e
      case ChooseAnswer(q, v) => Transition(s.(form := SetAnswer(s.form, q, v)), None)
      case Edit(field, value) => Transition(s.(form := SetDemographic(s.form, field, value)), None)
      case ClickNext => Transition(s.(step := Demographics), None)
      case ClickBack => Transition(Back(s), None)
      case ClickSubmit => Transition(BeginSubmit(s), Some(BuildPayload(s.form)))
      case Settle(outcome) => Transition(Finish(s, outcome), None)
      case ClickRestart => Transition(Reset(s), None)
  }

  function Run(s: State, es: seq<Event>): State
    decreases |es|
  {
    if |es| == 0 then s else Run(Dispatch(s, es[0]).next, es[1..])
  }

  // ----------------------------------------------------------- invariant

  predicate EmptyOr(v: string, allowed1: string, allowed2: string)
  {
    v == "" || v == allowed1 || v == allowed2
  }

  /** What holds in every state the screen can reach. */
  predicate Inv(s: State)
  {
    && WellFormedAnswers(s.form.answers)
    && EmptyOr(s.form.gender, "m", "f")
    && EmptyOr(s.form.jundice, "yes", "no")
    && EmptyOr(s.form.autism, "yes", "no")
    && s.form.usedAppBefore == "no"
    && (s.step == Demographics || s.loading ==> |s.form.answers| == 10)
    && (s.step == ShowingResult <==> s.result.Some?)
    && (s.step == ShowingResult ==> !s.loading)
    && (s.error.Some? ==> s.error.value == ErrorMessage)
  }

  lemma InitialInv()
    ensures Inv(Initial)
  {
  }

  lemma DispatchInv(s: State, e: Event)
    requires Inv(s)
    ensures Inv(Dispatch(s, e).next)
  {
    if Available(s, e) {
      match e
      case ChooseAnswer(q, v) => AnswerInv(s, q, v);
      case Edit(field, value) =>
      case ClickNext =>
      case ClickBack =>
      case ClickSubmit =>
      case Settle(outcome) =>
      case ClickRestart =>
    }
  }

  /** Re-answering a question on a complete questionnaire keeps it complete. */
  lemma AnswerInv(s: State, q: int, v: int)
    requires Inv(s) && Available(s, ChooseAnswer(q, v))
    ensures Inv(Dispatch(s, ChooseAnswer(q, v)).next)
  {
    var a := s.form.answers;
    var a' := a[q := v];
    assert WellFormedAnswers(a');
    if s.loading {
      AnswerCount(a);
      assert a'.Keys == a.Keys;
    }
  }

  /** Every state reachable from the initial one satisfies the invariant. */
  lemma {:induction false} RunInv(s: State, es: seq<Event>)
    requires Inv(s)
    ensures Inv(Run(s, es))
    decreases |es|
  {
    if |es| > 0 {
      DispatchInv(s, es[0]);
      RunInv(Dispatch(s, es[0]).next, es[1..]);
    }
  }

  // ---------------------------------------------------------- properties

  /** "Próximo" is enabled exactly when every one of the ten questions is answered. */
  lemma NextEnabledIff(s: State)
    requires Inv(s) && s.step == Answering
    ensures Available(s, ClickNext) <==> AllAnswered(s.form.answers)
  {
    AnswerCount(s.form.answers);
  }

  /** "Finalizar Triagem" is enabled exactly when the four required fields are
      filled in and no submission is in flight; `used_app_before` plays no part. */
  lemma SubmitEnabledIff(s: State)
    requires s.step == Demographics
    ensures Available(s, ClickSubmit) <==>
              s.form.age != "" && s.form.gender != "" && s.form.jundice != "" && s.form.autism != ""
              && !s.loading
  {
  }

  /** A submission that fails leaves the form on step 2 with everything entered
      kept, the fixed error message shown and the busy flag down. */
  lemma SubmitThenFail(s: State)
    requires Available(s, ClickSubmit)
    ensures var t := Dispatch(s, ClickSubmit);
            var r := Dispatch(t.next, Settle(Failed)).next;
            && t.request == Some(BuildPayload(s.form))
            && r.step == Demographics && r.form == s.form && r.result == s.result
            && r.error == Some(ErrorMessage) && !r.loading
  {
    var t := Dispatch(s, ClickSubmit);
    assert t.next == BeginSubmit(s);
    assert Available(t.next, Settle(Failed));
    assert Dispatch(t.next, Settle(Failed)).next == Finish(t.next, Failed);
  }

  /** A submission that succeeds shows step 3 holding exactly the response body,
      with no error and the busy flag down. */
  lemma SubmitThenSucceed(s: State, data: Json.Object)
    requires Available(s, ClickSubmit)
    ensures var t := Dispatch(s, ClickSubmit);
            var r := Dispatch(t.next, Settle(Responded(data))).next;
            && t.request == Some(BuildPayload(s.form))
            && r.step == ShowingResult && r.result == Some(data) && r.form == s.form
            && r.error.None? && !r.loading
  {
    var t := Dispatch(s, ClickSubmit);
    assert t.next == BeginSubmit(s);
    assert Available(t.next, Settle(Responded(data)));
    assert Dispatch(t.next, Settle(Responded(data))).next == Finish(t.next, Responded(data));
  }

  /** While a submission is in flight a second click sends nothing. */
  lemma NoDuplicateSubmit(s: State)
    requires s.loading
    ensures Dispatch(s, ClickSubmit) == Transition(s, None)
  {
  }

  /** "Próximo" moves to step 2 with every answer and field kept. */
  lemma NextKeepsForm(s: State)
    requires Available(s, ClickNext)
    ensures var r := Dispatch(s, ClickNext).next;
            r.step == Demographics && r.form == s.form && r.form.answers == s.form.answers
            && r.error == s.error && r.loading == s.loading && r.result == s.result
  {
  }

  /** "Voltar" returns to step 1 with the form untouched. */
  lemma BackKeepsForm(s: State)
    requires s.step == Demographics
    ensures var r := Dispatch(s, ClickBack).next;
            r.step == Answering && r.form == s.form && r.error == s.error && r.loading == s.loading
  {
  }

  /** "Nova Triagem" on the result screen gives back the initial state exactly. */
  lemma RestartIsInitial(s: State)
    requires Inv(s) && Available(s, ClickRestart)
    ensures Dispatch(s, ClickRestart).next == Initial
  {
  }

  /** Age accepted by the API's range check once parsed. */
  predicate AgeInRange(age: string)
  {
    JsInt.ParseInt(age).Some? && 1 <= JsInt.ParseInt(age).value <= 100
  }

  /** The step-2 gate only asks for non-empty fields; the age range is checked
      by the API alone. A reachable form that passes the gate is accepted by the
      API exactly when its age parses into 1..100, and otherwise rejected for the
      age field only. */
  lemma GatedFormAcceptedIff(s: State)
    requires Inv(s) && s.step == Demographics && CanProceed(s)
    ensures Api.Validate(BuildPayload(s.form)).Success? <==> AgeInRange(s.form.age)
    ensures !AgeInRange(s.form.age) ==> Api.Validate(BuildPayload(s.form)).error == [Api.Age]
  {
    var p := BuildPayload(s.form);
    GatedScoresOk(s);
    assert Api.IsGenderCode(p.gender) && Api.IsYesNo(p.jundice) && Api.IsYesNo(p.autism);
    assert Api.IsYesNo(p.usedAppBefore);  // unfolding hint
    Api.OnlyAgeBad(p);
    assert Api.AgeOk(p) <==> AgeInRange(s.form.age);
    assert Api.Validate(p).Success? <==> Api.Errors(p) == [];
  }

  /** Past the gate every score of the request body is present and valid. */
  lemma GatedScoresOk(s: State)
    requires Inv(s) && s.step == Demographics && CanProceed(s)
    ensures Api.ScoreErrors(BuildPayload(s.form), 10) == []
  {
    var p := BuildPayload(s.form);
    AnswerCount(s.form.answers);
    forall q | 0 <= q < 10
      ensures Api.ScoreOk(p, q)
    {
      assert IsQuestion(q + 1);
      assert Api.ScoreField(p, q) == ScoreOf(s.form.answers, q + 1);
    }
  }

  const AllYes: map<int, int> :=
    map[1 := 1, 2 := 1, 3 := 1, 4 := 1, 5 := 1, 6 := 1, 7 := 1, 8 := 1, 9 := 1, 10 := 1]

  /** Step 2 with every answer 1 and the given demographics. */
  function Filled(age: string, gender: string, jundice: string, autism: string): State
  {
    State(Demographics, FormData(age, gender, jundice, autism, "no", AllYes), None, false, None)
  }

  lemma FilledInv(age: string, gender: string, jundice: string, autism: string)
    requires gender == "m" || gender == "f"
    requires jundice == "yes" || jundice == "no"
    requires autism == "yes" || autism == "no"
    ensures Inv(Filled(age, gender, jundice, autism))
  {
    AllYesComplete();
  }

  lemma AllYesComplete()
    ensures WellFormedAnswers(AllYes) && |AllYes| == 10
  {
    assert AllYes.Keys == Questions;
    QuestionsSize();
  }

  /** An age of "0" gets past the step-2 gate and is then refused by the API,
      for the age field alone. */
  lemma AgeZeroPassesGate()
    ensures var s := Filled("0", "m", "yes", "yes");
            && Inv(s) && Available(s, ClickSubmit)
            && Api.Validate(BuildPayload(s.form)) == Failure([Api.Age])
  {
    var s := Filled("0", "m", "yes", "yes");
    FilledInv("0", "m", "yes", "yes");
    JsInt.ParseShow(0);
    GatedFormAcceptedIff(s);
  }

  /** All ten answers 1, age "5", male, with jaundice and family history: the
      request the wizard sends is accepted. */
  lemma ExampleAccepted()
    ensures var s := Filled("5", "m", "yes", "yes");
            && Inv(s) && Available(s, ClickSubmit)
            && Api.Validate(BuildPayload(s.form)).Success?
  {
    var s := Filled("5", "m", "yes", "yes");
    FilledInv("5", "m", "yes", "yes");
    JsInt.ParseShow(5);
    assert JsInt.Show(5) == "5";  // unfolding hint
    GatedFormAcceptedIff(s);
  }

  /** The backend's prediction body has no `recommendation` member, so the
      recommendation box on the result screen is always empty. */
  lemma RecommendationNeverShown(s: State, o: Api.PredictionOutput)
    requires Available(s, ClickSubmit)
    ensures var t := Dispatch(s, ClickSubmit).next;
            var r := Dispatch(t, Settle(Responded(Api.Encode(o)))).next;
            r.result.Some? && "recommendation" !in r.result.value
  {
    SubmitThenSucceed(s, Api.Encode(o));
  }
}
